=== FILE: README.md ===
# snmp-ups-sim: a Dafny model of the simulated APC UPS agent

The simulator is a Node.js SNMP agent that poses as an APC uninterruptible
power supply. It registers 19 read-only scalars in three MIB subtrees:
the SNMPv2 system group, UPS-MIB (RFC 1628) and APC's PowerNet-MIB. It seeds
each scalar with a start-up value. It then turns MQTT telemetry messages on
`ups/...` topics into writes to those scalars. This project models that core:

- `Registry` (`registry.dfy`): the provider table. Each scalar has a name,
  OID, SNMP type, access and, for five of them, an enumeration of codes. The
  module also gives lookup by name and by OID, and the well-formedness facts
  of the table.
- `ValueStore` (`value_store.dfy`): the MIB's value store. It holds one typed
  value per scalar. `setScalarValue` takes a registered name and a JavaScript
  string or number; the scalar's type decides what is stored. The model
  refuses an unknown name and a value of the wrong kind (see Left out). A
  list of calls is applied in order.
- `Seed` (`seed.dfy`): the 19 start-up calls, as name strings and JavaScript
  values, the typed writes they resolve to, and the store they produce.
- `JsText` and `JsNumber` (`js_text.dfy`, `js_number.dfy`): the JavaScript
  built-ins the handler relies on:
  - `parseFloat`, as a decimal-prefix reader over exact reals, with NaN as `None`;
  - `Math.round` (nearest integer, ties toward +infinity);
  - `toUpperCase` on the letters that upper-case to an ASCII capital.
- `Dispatcher` (`dispatcher.dfy`): the MQTT message handler as written:
  - the switch is given with the name strings its statements pass to
    `setScalarValue`, and each name is looked up in the registry;
  - the NaN guard comes first;
  - then a `switch` is entered at the first matching label and left at the
    first `break`. Two cases have no `break`, so `ups/batteryTemperature`
    falls through into `ups/remaining` and `ups/percent`;
  - the status case upper-cases the payload and writes 2 (onLine) for
    "MAINS" and 3 otherwise.
- `CorrectedDispatcher` (`corrected.dfy`): the handler as its comments and
  status codes describe it. The status topic is handled before the NaN guard,
  and every case ends in `break` (see Findings).
- `Scenarios` (`scenarios.dfy`): concrete messages, for example `229.5` on
  `ups/voltage` is stored as 230.

`Math.round` sends ties toward +infinity, so -2.5 becomes -2, and `Round`
does the same. The cases at lines 28 and 30 have no `break`, and `Dispatch`
falls through them. The `break` at line 35 ends that fall-through after the two
charge scalars, before the status case.

## Model

| member | source | states |
|---|---|---|
| `JsText.ToUpperCase` | snmp-ups-sim/snmp-agent.js:37 | upper-casing keeps the payload's length, leaves no lower-case letter, and keeps every character that is not a lower-case letter where it was |
| `JsText.UpperCharMatches` | snmp-ups-sim/snmp-agent.js:37 | a character upper-cases to a given capital exactly when it is that capital, its ASCII lower case, or dotless i for I and long s for S |
| `JsText.ToUpperCaseMatches` | snmp-ups-sim/snmp-agent.js:37-38 | upper-casing a payload yields "MAINS" exactly when the payload spells MAINS in any mix of letter case (both directions) |
| `JsNumber.ParseFloat` | snmp-ups-sim/snmp-agent.js:20 | a non-NaN result needs a payload that, after leading white space, starts with a digit, sign, point or `I`; a payload that starts with a digit always parses to a finite number |
| `JsNumber.ParseFloatDigits` | snmp-ups-sim/snmp-agent.js:20 | a payload made only of decimal digits parses to the natural number those digits spell |
| `JsNumber.Round` | snmp-ups-sim/snmp-agent.js:25 | `Math.round(x)` is the integer n with n - 1/2 <= x < n + 1/2 |
| `JsNumber.RoundUnique` | snmp-ups-sim/snmp-agent.js:25 | that integer is unique: any m with m - 1/2 <= x < m + 1/2 is the rounded value |
| `JsNumber.RoundDistance` | snmp-ups-sim/snmp-agent.js:25 | rounding moves a reading by at most one half |
| `JsNumber.RoundTiesUp` | snmp-ups-sim/snmp-agent.js:25 | a tie k + 1/2 rounds to k + 1 for every integer k, negative ones included (-2.5 goes to -2) |
| `JsNumber.RoundFixesIntegers` | snmp-ups-sim/snmp-agent.js:25 | a reading that is already an integer is stored unchanged |
| `Registry.ProvidersFound` | snmp-ups-sim/snmp-agent.js:71-136 | the table lists 19 providers, and looking up each provider's name, or its OID, finds the scalar registered at that position |
| `Registry.RegisteredOnce` | snmp-ups-sim/snmp-agent.js:138 | no scalar is registered twice |
| `Registry.ScalarNamedInverse` | snmp-ups-sim/snmp-agent.js:71-136 | looking up a provider's name finds that provider |
| `Registry.NamesInjective` | snmp-ups-sim/snmp-agent.js:71-136 | two scalars with the same name are the same scalar |
| `Registry.ScalarNamedFound` | snmp-ups-sim/snmp-agent.js:71-136 | a name lookup that succeeds returns a scalar registered under exactly that name |
| `Registry.ScalarNamedMissing` | snmp-ups-sim/snmp-agent.js:71-136 | a name lookup fails only when no scalar is registered under that name |
| `Registry.ScalarAtInverse` | snmp-ups-sim/snmp-agent.js:71-136 | looking up a provider's OID finds that provider |
| `Registry.ScalarAtFound` | snmp-ups-sim/snmp-agent.js:71-136 | an OID lookup that succeeds returns a scalar registered at exactly that OID |
| `Registry.ScalarAtMissing` | snmp-ups-sim/snmp-agent.js:71-136 | an OID lookup fails only when no scalar has that OID |
| `Registry.ProvidersUnique` | snmp-ups-sim/snmp-agent.js:71-136 | the table has 19 providers, and no two of them share a name or an OID |
| `Registry.ProvidersUnderMibs` | snmp-ups-sim/snmp-agent.js:71-136 | every provider's OID lies strictly below the system group, UPS-MIB or PowerNet-MIB |
| `Registry.EnumerationsWellFormed` | snmp-ups-sim/snmp-agent.js:89-131 | only Integer scalars carry an enumeration, and every enumerated code is positive |
| `Registry.StatusCodesDefined` | snmp-ups-sim/snmp-agent.js:84-130 | code 2 means onLine and 3 onBattery for the output status; on both battery statuses 2 is batteryNormal and 3 is batteryLow |
| `ValueStore.Set` | snmp-ups-sim/snmp-agent.js:141-162 | a write succeeds exactly when the value has the scalar's type; it then stores the value, keeps every other scalar and keeps the store well typed |
| `ValueStore.Typed` | snmp-ups-sim/snmp-agent.js:141-162 | a scalar takes a JavaScript number exactly when its type is numeric and a string otherwise; a number is stored as that number with the scalar's type, a string as text or as a dotted OID |
| `ValueStore.ResolveCall` | snmp-ups-sim/snmp-agent.js:141-162 | a call resolves to the scalar registered under its name, with the value that scalar's type makes of the JavaScript value; it fails exactly when no scalar of that name takes a value of that kind |
| `ValueStore.ResolveCallNamed` | snmp-ups-sim/snmp-agent.js:141-162 | a call under a scalar's registered name resolves to that scalar |
| `ValueStore.SetNamed` | snmp-ups-sim/snmp-agent.js:141-162 | writing by name fails with NotFound for an unregistered name and with TypeMismatch for a value of the wrong kind; otherwise it stores the typed value under that scalar and keeps the store well typed |
| `ValueStore.SetNamedResolves` | snmp-ups-sim/snmp-agent.js:141-162 | writing by name succeeds exactly when the call resolves, and is then the typed write it resolves to |
| `ValueStore.GetNamed` | snmp-ups-sim/snmp-agent.js:68 | the read net-snmp makes of the agent's MIB when it answers a GET (the agent never reads a scalar itself): it fails exactly for an unregistered name; otherwise it returns the stored value, of the scalar's type |
| `ValueStore.GetAfterSet` | snmp-ups-sim/snmp-agent.js:141-162 | after a successful write a read of that name returns the written JavaScript value as the scalar's type stores it, and reads of other names are unchanged |
| `ValueStore.SetNumber` | snmp-ups-sim/snmp-agent.js:25-44 | writing a number to a numeric scalar is never refused; it stores that number with the scalar's type and keeps every other scalar |
| `ValueStore.SetNumberUpdates` | snmp-ups-sim/snmp-agent.js:25-44 | a numeric write is `setScalarValue` of that JavaScript number under the scalar's registered name, which succeeds |
| `ValueStore.SetAll` | snmp-ups-sim/snmp-agent.js:141-162 | a run of writes succeeds exactly when every write carries a value of its scalar's type |
| `ValueStore.SetCalls` | snmp-ups-sim/snmp-agent.js:141-162 | a sequence of `setScalarValue` calls, applied in order and stopped at the first one refused; when every call is accepted a well-typed store stays well typed (what the calls write is stated by `SetCallsResolved`) |
| `ValueStore.SetCallsResolved` | snmp-ups-sim/snmp-agent.js:141-162 | calls that all resolve are all accepted, and applying them does what applying their typed writes does |
| `ValueStore.ResolvedCallsRegistered` | snmp-ups-sim/snmp-agent.js:141-162 | each call that resolves names a registered scalar and passes a number exactly when that scalar is numeric |
| `ValueStore.LastWrite` | snmp-ups-sim/snmp-agent.js:141-162 | there is no last write to a scalar exactly when no write targets it; otherwise it is a write to it that no later write to it follows |
| `ValueStore.LastWriteOfDistinct` | snmp-ups-sim/snmp-agent.js:141-162 | when no two writes target the same scalar, the last write to each target is its only write |
| `ValueStore.SetAllAt` | snmp-ups-sim/snmp-agent.js:141-162 | after a run of writes a scalar holds its last written value, or its old value when no write targets it |
| `ValueStore.SetAllOfDistinct` | snmp-ups-sim/snmp-agent.js:141-162 | writes to distinct scalars leave each written scalar holding the value written to it |
| `ValueStore.SetAllCoveringWellTyped` | snmp-ups-sim/snmp-agent.js:141-162 | typed writes that reach every scalar turn the empty store into a well-typed one |
| `Seed.SeedNamesDistinct` | snmp-ups-sim/snmp-agent.js:141-162 | no two start-up writes target the same scalar |
| `Seed.SeedCallNamed` | snmp-ups-sim/snmp-agent.js:141-162 | the start-up call at each scalar's position is made under that scalar's registered name |
| `Seed.SeedCallTyped` | snmp-ups-sim/snmp-agent.js:141-162 | the JavaScript value of each start-up call, typed by its scalar, is the value of the start-up write at the same position |
| `Seed.SeedResolved` | snmp-ups-sim/snmp-agent.js:141-162 | each start-up call resolves to the start-up write at its position |
| `Seed.SeedTyped` | snmp-ups-sim/snmp-agent.js:141-162 | every start-up call names a registered scalar and passes a number exactly when that scalar is numeric, a string otherwise |
| `Seed.SeedCallsAccepted` | snmp-ups-sim/snmp-agent.js:141-162 | no start-up call is refused, and together they do what the start-up writes do |
| `Seed.InitialStore` | snmp-ups-sim/snmp-agent.js:141-162 | after the start-up calls every registered scalar holds a value of its type |
| `Seed.SeedExactlyOnce` | snmp-ups-sim/snmp-agent.js:141-162 | every registered scalar is seeded, by exactly one start-up write |
| `Seed.InitialValue` | snmp-ups-sim/snmp-agent.js:141-162 | after start-up each scalar holds the value of its one start-up write, which is the JavaScript value of its start-up call typed by the scalar |
| `Seed.SeedWriteInEnumeration` | snmp-ups-sim/snmp-agent.js:146-157 | the start-up value of each enumerated scalar is an Integer code of its enumeration |
| `Seed.SeedEnumerationsValid` | snmp-ups-sim/snmp-agent.js:146-157 | after start-up each enumerated scalar holds a code of its enumeration |
| `Dispatcher.CaseIndex` | snmp-ups-sim/snmp-agent.js:23 | the switch enters at the first label equal to the topic; no label before it matches; there is no entry exactly when no label matches |
| `Dispatcher.StatusCodeOf` | snmp-ups-sim/snmp-agent.js:37-38 | the status code is 2 exactly when the payload spells MAINS in any letter case, and 3 otherwise |
| `Dispatcher.RunFrom` | snmp-ups-sim/snmp-agent.js:23-48 | no contract: the statements run when control enters the switch at a case, that case's and then the following cases' up to the first `break` (stated, case by case, by `RunFromStartsWithCase`) |
| `Dispatcher.RunFromStartsWithCase` | snmp-ups-sim/snmp-agent.js:23-48 | entering at a case runs that case's statements first; a case that ends in `break`, or the last case, runs nothing more, and any other case falls through: its statements are followed by everything the next case runs |
| `Dispatcher.Executed` | snmp-ups-sim/snmp-agent.js:23-48 | no contract: the statements a topic runs, from the case it enters at, none when it reaches `default` (stated by `ExecutedStartsAtLabel`) |
| `Dispatcher.ExecutedStartsAtLabel` | snmp-ups-sim/snmp-agent.js:23-48 | a topic that matches no label runs nothing; a topic that some label equals runs exactly what entering at the first such case runs, and a topic that runs statements starts with that case's own |
| `Dispatcher.OperandValue` | snmp-ups-sim/snmp-agent.js:25-44 | a status statement writes the status code; a rounded statement writes something exactly when the payload parsed to a finite number, and then writes `Math.round` of it |
| `Dispatcher.StepEffect` | snmp-ups-sim/snmp-agent.js:25-44 | one statement overwrites at most its own target, with its operand's value as a value of the target's type |
| `Dispatcher.Step` | snmp-ups-sim/snmp-agent.js:25-44 | running one statement overrides the store with that statement's effect |
| `Dispatcher.Effect` | snmp-ups-sim/snmp-agent.js:23-48 | a run of statements overwrites only the scalars those statements name, each with a value of its type |
| `Dispatcher.Perform` | snmp-ups-sim/snmp-agent.js:23-48 | no contract: the statements run one after another against the store (what that does is stated by `PerformIsOverride`, `PerformLeavesOthers` and `PerformWellTyped`) |
| `Dispatcher.PerformIsOverride` | snmp-ups-sim/snmp-agent.js:23-48 | running the statements is overriding the store with their combined effect, the later statement winning |
| `Dispatcher.PerformWellTyped` | snmp-ups-sim/snmp-agent.js:23-48 | running statements on numeric scalars keeps a well-typed store well typed |
| `Dispatcher.PerformIdempotent` | snmp-ups-sim/snmp-agent.js:23-48 | running the same statements on the same payload twice gives the store running them once gives |
| `Dispatcher.PerformLeavesOthers` | snmp-ups-sim/snmp-agent.js:23-48 | a scalar that no statement names keeps its value |
| `Dispatcher.PerformAppend` | snmp-ups-sim/snmp-agent.js:28-35 | running two runs of statements back to back is running their concatenation, the shape fall-through gives |
| `Dispatcher.Resolve` | snmp-ups-sim/snmp-agent.js:25-44 | a statement resolves to the scalar registered under its name, keeping its operand; it fails only for a name nobody is registered under |
| `Dispatcher.StatementResolved` | snmp-ups-sim/snmp-agent.js:25-44 | each statement of the switch as written resolves to the statement at the same place of the resolved switch |
| `Dispatcher.SwitchResolved` | snmp-ups-sim/snmp-agent.js:23-45 | looking up every name of the switch as written gives the resolved switch: same labels, same `break`s, each name registered to the scalar it writes |
| `Dispatcher.SwitchTargetsRegistered` | snmp-ups-sim/snmp-agent.js:23-45 | every name the switch passes to `setScalarValue` is registered, to an Integer or Gauge32 scalar outside the nine never-written ones, so no number it writes is refused |
| `Dispatcher.SwitchReachesOthers` | snmp-ups-sim/snmp-agent.js:23-45 | every scalar outside the nine never-written ones is written by some statement of the switch |
| `Dispatcher.SwitchTargetsExactly` | snmp-ups-sim/snmp-agent.js:23-45 | the switch writes exactly the ten scalars outside the nine never-written ones |
| `Dispatcher.UnhandledRunsNothing` | snmp-ups-sim/snmp-agent.js:46-47 | a topic that matches no label reaches `default` and runs no statement |
| `Dispatcher.ExecutedAvoidsNeverWritten` | snmp-ups-sim/snmp-agent.js:23-48 | whatever the topic, the statements run write numeric scalars and none of the nine never-written ones |
| `Dispatcher.Dispatch` | snmp-ups-sim/snmp-agent.js:18-49 | the handler keeps the store well typed; a NaN payload or an unhandled topic leaves the store unchanged; the nine never-written scalars never change |
| `Dispatcher.DispatchIdempotent` | snmp-ups-sim/snmp-agent.js:18-49 | handling the same message twice leaves the store as handling it once |
| `Dispatcher.CaseIndexOf` | snmp-ups-sim/snmp-agent.js:24-43 | each of the six labels enters the switch at its own case: the labels are distinct |
| `Dispatcher.ExecutedVoltage` | snmp-ups-sim/snmp-agent.js:24-27 | `ups/voltage` runs the two voltage statements, then breaks |
| `Dispatcher.ExecutedPercent` | snmp-ups-sim/snmp-agent.js:32-35 | `ups/percent` runs the two charge statements, then breaks |
| `Dispatcher.ExecutedRemaining` | snmp-ups-sim/snmp-agent.js:30-35 | `ups/remaining` falls through: it runs the run-time statement and then the two charge statements |
| `Dispatcher.ExecutedBatteryTemperature` | snmp-ups-sim/snmp-agent.js:28-35 | `ups/batteryTemperature` falls through twice: the temperature, run-time and two charge statements, in that order |
| `Dispatcher.ExecutedStatus` | snmp-ups-sim/snmp-agent.js:36-42 | `ups/status` runs the three status statements, then breaks |
| `Dispatcher.ExecutedPower` | snmp-ups-sim/snmp-agent.js:43-45 | `ups/power` runs the output-current statement, then breaks |
| `Dispatcher.MainsIsNaN` | snmp-ups-sim/snmp-agent.js:20-21 | a payload spelling MAINS in any letter case parses to NaN |
| `Dispatcher.ParsedStatusIsBattery` | snmp-ups-sim/snmp-agent.js:20-38 | any payload that passes the NaN guard gets status code 3 |
| `Dispatcher.DispatchVoltage` | snmp-ups-sim/snmp-agent.js:24-27 | a voltage reading x sets the input voltage to Integer round(x) and the line voltage to Gauge32 round(x), and nothing else |
| `Dispatcher.DispatchPercent` | snmp-ups-sim/snmp-agent.js:32-35 | a charge reading x sets both charge scalars to round(x), and nothing else |
| `Dispatcher.DispatchRemaining` | snmp-ups-sim/snmp-agent.js:30-35 | a run-time reading x sets the run time and both charge scalars to round(x) |
| `Dispatcher.DispatchBatteryTemperature` | snmp-ups-sim/snmp-agent.js:28-35 | a temperature reading x sets the temperature, the run time and both charge scalars to round(x) |
| `Dispatcher.DispatchPower` | snmp-ups-sim/snmp-agent.js:43-45 | a current reading x sets the output current to round(x), and nothing else |
| `Dispatcher.DispatchStatus` | snmp-ups-sim/snmp-agent.js:20-42 | a status message that parses as a number sets all three status scalars to 3 |
| `Dispatcher.DispatchMainsIgnored` | snmp-ups-sim/snmp-agent.js:20-42 | a status message reading MAINS, in any letter case, leaves the store unchanged |
| `CorrectedDispatcher.SameEntry` | snmp-ups-sim/snmp-agent.js:23-45 | adding `break`s to the switch leaves the case each topic enters at |
| `CorrectedDispatcher.RunsOwnCase` | snmp-ups-sim/snmp-agent.js:23-45 | with a `break` in every case, a topic runs exactly the statements under its own label |
| `CorrectedDispatcher.SameStatementsElsewhere` | snmp-ups-sim/snmp-agent.js:24-45 | the voltage, percent and power cases already end in `break`, so adding `break`s changes what no other topic runs |
| `CorrectedDispatcher.FixedDispatch` | snmp-ups-sim/snmp-agent.js:18-49 | the corrected handler keeps the store well typed; an unhandled topic, or NaN on any topic but status, leaves the store unchanged; the nine never-written scalars never change |
| `CorrectedDispatcher.FixedStatus` | snmp-ups-sim/snmp-agent.js:36-42 | a status message sets the three status scalars to 2 when it spells MAINS in any letter case and to 3 otherwise |
| `CorrectedDispatcher.FixedMains` | snmp-ups-sim/snmp-agent.js:36-42 | a MAINS message, which the handler as written drops, sets all three status scalars to 2 |
| `CorrectedDispatcher.FixedExecutedBatteryTemperature` | snmp-ups-sim/snmp-agent.js:28-29 | with a `break` after it, `ups/batteryTemperature` runs only the temperature statement |
| `CorrectedDispatcher.FixedExecutedRemaining` | snmp-ups-sim/snmp-agent.js:30-31 | with a `break` after it, `ups/remaining` runs only the run-time statement |
| `CorrectedDispatcher.FixedBatteryTemperature` | snmp-ups-sim/snmp-agent.js:28-29 | a temperature reading x sets the temperature to round(x) and nothing else |
| `CorrectedDispatcher.FixedRemaining` | snmp-ups-sim/snmp-agent.js:30-31 | a run-time reading x sets the run time to round(x) and nothing else |
| `CorrectedDispatcher.FixedAgreesElsewhere` | snmp-ups-sim/snmp-agent.js:18-49 | on every topic other than status, temperature and run time, the corrected handler behaves exactly as written |
| `CorrectedDispatcher.FixedIdempotent` | snmp-ups-sim/snmp-agent.js:18-49 | handling the same message twice leaves the store as handling it once |
| `Scenarios.ParseDecimal` | snmp-ups-sim/snmp-agent.js:20 | `parseFloat("229.5")` is 229.5 |
| `Scenarios.ParseWord` | snmp-ups-sim/snmp-agent.js:20-21 | `parseFloat("not-a-number")` is NaN |
| `Scenarios.VoltageMessage` | snmp-ups-sim/snmp-agent.js:24-27 | `229.5` on `ups/voltage` stores 230 in both voltage scalars |
| `Scenarios.WordMessage` | snmp-ups-sim/snmp-agent.js:20-21 | `not-a-number` on any topic changes nothing |
| `Scenarios.DotlessIMessage` | snmp-ups-sim/snmp-agent.js:36-42 | `MAıNS` (with a dotless i) upper-cases to `MAINS`, so the corrected handler sets onLine |
| `Scenarios.MainsMessage` | snmp-ups-sim/snmp-agent.js:36-42 | `MAINS` on `ups/status` changes nothing as written, while `mains` sets onLine in the corrected handler |

## Left out

- MQTT and SNMP transport are left out: the broker connection, the subscription
  to `ups/#`, the agent's port, the communities and request logging. The model
  starts from a decoded (topic, payload) pair.
- `registerProvider` (line 138) is modelled only as the registry data it
  receives. The library's own registration behaviour is not part of this model.
- `message.toString()` is left out: the payload is taken as an already-decoded string.
- Console logging is left out, including the `default` branch's diagnostic line.
  `default` is modelled as "no write".
- Floating point is left out. `parseFloat` is modelled over exact reals, so
  digits beyond double precision are not rounded the way IEEE 754 would round them.
- A reading that parses to an infinity: its numeric writes are skipped in the
  model. In the model only a payload that starts, after white space and an
  optional sign, with `Infinity` parses to an infinity; for overflow see the
  `JsNumber.ParseFloat` line below. `Math.round(Infinity)` is Infinity, and
  net-snmp's handling of a non-finite value written to an Integer scalar
  is not part of this model.
- `JsNumber.ParseFloat`: a literal whose magnitude is beyond the range of a
  double (such as `1e400`) parses to a finite real in the model, where
  JavaScript gives an infinity. Such a reading is therefore rounded and
  written in the model rather than skipped, because the model uses exact
  reals and no double range.
- Integer and Gauge32 ranges are left out. Rounded readings are unbounded
  integers, and net-snmp's range checks are not part of this model.
- `toUpperCase` is modelled on ASCII letters, dotless i and long s. Every
  other character is kept as it is; characters that JavaScript upper-cases
  to two characters (such as ß, which becomes SS) are not modelled. No
  character left out upper-cases to a letter of MAINS or to two consecutive
  letters of it, so whether a payload upper-cases to "MAINS" is unaffected.
  In the handler as written that comparison is never reached for such a
  payload anyway: it starts with M or m, so it parses to NaN.
- `ValueStore.SetNamed`: refusing an unknown name or a value of the wrong kind
  is a decision of the model. net-snmp's own `setScalarValue` checks are not part
  of this model. No call in the agent is affected: `SeedTyped` and
  `SwitchTargetsRegistered` show that every call it makes is accepted.
- JavaScript numbers passed to `setScalarValue` are modelled as integers. The
  agent passes only integer literals and `Math.round` results; a
  non-integral number is not modelled.
- An ObjectIdentifier value is kept as its dotted text, as the start-up call
  passes it ("1.3.6.1.4.1.318.1.1.1"). Whether that text is a well-formed OID
  is not checked.
- Concurrency and message interleaving are left out: the handler is modelled
  one message at a time.

## Findings

| source | as written | input that shows it | evidently intended | confidence | as-written member | corrected member |
|---|---|---|---|---|---|---|
| snmp-ups-sim/snmp-agent.js:20-21 | the NaN guard runs before the switch, so a status payload such as "MAINS" is dropped, and the status case can only ever write 3 | topic `ups/status`, payload `MAINS` | "MAINS" sets the three status scalars to 2 (onLine), as the comment at line 38 says | high, not executed | `Dispatcher.DispatchMainsIgnored` | `CorrectedDispatcher.FixedMains` |
| snmp-ups-sim/snmp-agent.js:28-31 | the temperature and run-time cases have no `break`, so one reading is copied into the run time and both charge scalars | topic `ups/batteryTemperature`, payload `31` | a temperature reading sets only the temperature, and a run-time reading only the run time | medium, not executed | `Dispatcher.DispatchBatteryTemperature` | `CorrectedDispatcher.FixedBatteryTemperature` |

=== FILE: corrected.dfy ===
/**
 * The message handler as its comments describe it: a status message is
 * mapped to onLine (2) or onBattery (3) before any number is parsed, and
 * every `case` of the switch ends in `break`, so a topic writes only the
 * scalars listed under its own label.
 */
module CorrectedDispatcher {
  import opened Wrappers
  import opened JsText
  import opened JsNumber
  import opened Registry
  import opened ValueStore
  import opened Dispatcher

  /** The handler's switch with a `break` closing every case. */
  const BreakingSwitch: seq<Case<Write>> := [
    Case(Voltage,
      [Write(UpsInputVoltage, RoundedNumber), Write(UpsAdvInputLineVoltage, RoundedNumber)], true),
    Case(BatteryTemperature,
      [Write(UpsAdvBatteryTemperature, RoundedNumber)], true),
    Case(Remaining,
      [Write(UpsAdvBatteryRunTimeRemaining, RoundedNumber)], true),
    Case(Percent,
      [Write(UpsEstimatedChargeRemaining, RoundedNumber), Write(UpsAdvBatteryCapacity, RoundedNumber)], true),
    Case(Status,
      [Write(UpsBasicOutputStatus, StatusCode), Write(UpsBatteryStatus, StatusCode),
       Write(UpsBasicBatteryStatus, StatusCode)], true),
    Case(Power,
      [Write(UpsAdvOutputCurrent, RoundedNumber)], true)
  ]

  /** Case by case, the corrected switch is the original one with `break` added. */
  lemma BreakingSwitchAddsBreaks()
    ensures |BreakingSwitch| == |MessageSwitch|
    ensures forall i :: 0 <= i < |BreakingSwitch| ==> BreakingSwitch[i] == MessageSwitch[i].(breaks := true)
  {
  }

  /** Adding `break`s leaves the labels, so a topic enters both switches at the same case. */
  lemma {:induction false} SameEntry(topic: string, from: nat)
    requires from <= |MessageSwitch|
    ensures CaseIndex(BreakingSwitch, topic, from) == CaseIndex(MessageSwitch, topic, from)
    decreases |MessageSwitch| - from
  {
    BreakingSwitchAddsBreaks();
    if from < |MessageSwitch| {
      SameEntry(topic, from + 1);
    }
  }

  /** In the corrected switch a topic runs the statements of its own case and nothing else. */
  lemma RunsOwnCase(topic: string)
    ensures Executed(BreakingSwitch, topic)
         == match CaseIndex(MessageSwitch, topic, 0)
            case None => []
            case Some(i) => MessageSwitch[i].writes
  {
    SameEntry(topic, 0);
    BreakingSwitchAddsBreaks();
  }

  /** The corrected switch writes numeric scalars outside `NeverWritten`, and nothing for an unhandled topic. */
  lemma FixedRunsWithin(topic: string)
    ensures WritesNumeric(Executed(BreakingSwitch, topic))
    ensures Targets(Executed(BreakingSwitch, topic)) !! NeverWritten
    ensures topic !in HandledTopics ==> Executed(BreakingSwitch, topic) == []
  {
    RunsOwnCase(topic);
    SwitchTargetsRegistered();
    UnhandledRunsNothing(topic);
    match CaseIndex(MessageSwitch, topic, 0)
    case None =>
    case Some(i) =>
      assert MessageSwitch[i] in MessageSwitch;
  }

  /** The three status scalars are Integer scalars outside `NeverWritten`. */
  lemma StatusScalarsInteger()
    ensures TypeOf(UpsBasicOutputStatus) == Integer
    ensures TypeOf(UpsBatteryStatus) == Integer
    ensures TypeOf(UpsBasicBatteryStatus) == Integer
    ensures UpsBasicOutputStatus !in NeverWritten && UpsBatteryStatus !in NeverWritten
    ensures UpsBasicBatteryStatus !in NeverWritten
  {
  }

  /** The corrected handler: status first, whatever the payload; then the NaN guard and a switch without fall-through. */
  function FixedDispatch(s: Store, topic: string, payload: string): (r: Store)
    ensures WellTyped(s) ==> WellTyped(r)
    ensures topic !in HandledTopics ==> r == s
    ensures topic != "ups/status" && ParseFloat(payload).None? ==> r == s
    ensures forall n :: n in NeverWritten ==> (n in r <==> n in s) && (n in s ==> r[n] == s[n])
  {
    if topic == "ups/status" then
      StatusScalarsInteger();
      var code := Int(StatusCodeOf(payload));
      s[UpsBasicOutputStatus := code][UpsBatteryStatus := code][UpsBasicBatteryStatus := code]
    else
      match ParseFloat(payload)
      case None => s
      case Some(num) =>
        var ws := Executed(BreakingSwitch, topic);
        FixedRunsWithin(topic);
        PerformIsOverride(s, ws, num, payload);
        Perform(s, ws, num, payload)
  }

  /**
   * A status message writes 2 (onLine) to the three status scalars exactly
   * when it reads "MAINS" in any letter case, and 3 (onBattery) otherwise.
   */
  lemma FixedStatus(s: Store, payload: string)
    ensures FixedDispatch(s, "ups/status", payload)
         == var code := Int(if EqualsIgnoringCase(payload, "MAINS") then 2 else 3);
            s[UpsBasicOutputStatus := code][UpsBatteryStatus := code][UpsBasicBatteryStatus := code]
  {
  }

  /** Where the original handler drops a "MAINS" message, the corrected one records onLine. */
  lemma FixedMains(s: Store, payload: string)
    requires EqualsIgnoringCase(payload, "MAINS")
    ensures Dispatch(s, "ups/status", payload) == s
    ensures FixedDispatch(s, "ups/status", payload)
         == s[UpsBasicOutputStatus := Int(2)][UpsBatteryStatus := Int(2)][UpsBasicBatteryStatus := Int(2)]
  {
    DispatchMainsIgnored(s, payload);
  }

  /** Past the NaN guard, a topic other than status runs the statements of its own case. */
  lemma FixedRuns(s: Store, topic: string, payload: string, num: Number, ws: seq<Write>)
    requires topic != "ups/status"
    requires ParseFloat(payload) == Some(num)
    requires Executed(BreakingSwitch, topic) == ws
    ensures WritesNumeric(ws)
    ensures FixedDispatch(s, topic, payload) == Perform(s, ws, num, payload)
  {
    FixedRunsWithin(topic);
  }

  /** With its `break`, `ups/batteryTemperature` runs the temperature statement alone. */
  lemma FixedExecutedBatteryTemperature()
    ensures Executed(BreakingSwitch, "ups/batteryTemperature") == [Write(UpsAdvBatteryTemperature, RoundedNumber)]
  {
    RunsOwnCase("ups/batteryTemperature");
    CaseIndexOf(BatteryTemperature);
  }

  /** With its `break`, `ups/remaining` runs the run-time statement alone. */
  lemma FixedExecutedRemaining()
    ensures Executed(BreakingSwitch, "ups/remaining") == [Write(UpsAdvBatteryRunTimeRemaining, RoundedNumber)]
  {
    RunsOwnCase("ups/remaining");
    CaseIndexOf(Remaining);
  }

  /** `ups/batteryTemperature` writes the battery temperature and nothing else. */
  lemma FixedBatteryTemperature(s: Store, payload: string, x: real)
    requires ParseFloat(payload) == Some(Finite(x))
    ensures FixedDispatch(s, "ups/batteryTemperature", payload) == s[UpsAdvBatteryTemperature := Int(Round(x))]
  {
    FixedExecutedBatteryTemperature();
    FixedRuns(s, "ups/batteryTemperature", payload, Finite(x), [Write(UpsAdvBatteryTemperature, RoundedNumber)]);
    TemperatureWrite(s, payload, x);
  }

  lemma TemperatureWrite(s: Store, payload: string, x: real)
    ensures Perform(s, [Write(UpsAdvBatteryTemperature, RoundedNumber)], Finite(x), payload)
         == s[UpsAdvBatteryTemperature := Int(Round(x))]
  {
    PerformRoundedOne(s, UpsAdvBatteryTemperature, x, payload);
  }

  /** `ups/remaining` writes the run time remaining and nothing else. */
  lemma FixedRemaining(s: Store, payload: string, x: real)
    requires ParseFloat(payload) == Some(Finite(x))
    ensures FixedDispatch(s, "ups/remaining", payload) == s[UpsAdvBatteryRunTimeRemaining := Int(Round(x))]
  {
    FixedExecutedRemaining();
    FixedRuns(s, "ups/remaining", payload, Finite(x), [Write(UpsAdvBatteryRunTimeRemaining, RoundedNumber)]);
    RemainingWrite(s, payload, x);
  }

  lemma RemainingWrite(s: Store, payload: string, x: real)
    ensures Perform(s, [Write(UpsAdvBatteryRunTimeRemaining, RoundedNumber)], Finite(x), payload)
         == s[UpsAdvBatteryRunTimeRemaining := Int(Round(x))]
  {
    PerformRoundedOne(s, UpsAdvBatteryRunTimeRemaining, x, payload);
  }

  /** Outside the status, temperature and run-time labels, every case already ends in `break`. */
  lemma SameStatementsElsewhere(topic: string)
    requires topic !in {"ups/status", "ups/batteryTemperature", "ups/remaining"}
    ensures Executed(BreakingSwitch, topic) == Executed(MessageSwitch, topic)
  {
    RunsOwnCase(topic);
    match CaseIndex(MessageSwitch, topic, 0)
    case None =>
    case Some(i) =>
      assert i != 1 && i != 2 && i != 4;
      assert MessageSwitch[i].breaks;
  }

  /** The corrections change only the status, temperature and run-time topics: every other message is handled as before. */
  lemma FixedAgreesElsewhere(s: Store, topic: string, payload: string)
    requires topic !in {"ups/status", "ups/batteryTemperature", "ups/remaining"}
    ensures FixedDispatch(s, topic, payload) == Dispatch(s, topic, payload)
  {
    match ParseFloat(payload)
    case None =>
    case Some(num) =>
      var ws := Executed(MessageSwitch, topic);
      SameStatementsElsewhere(topic);
      FixedRuns(s, topic, payload, num, ws);
      DispatchRuns(s, topic, payload, num, ws);
  }

  /** Handling the same message twice leaves the store as handling it once. */
  lemma FixedIdempotent(s: Store, topic: string, payload: string)
    ensures FixedDispatch(FixedDispatch(s, topic, payload), topic, payload) == FixedDispatch(s, topic, payload)
  {
    if topic != "ups/status" {
      match ParseFloat(payload)
      case None =>
      case Some(num) =>
        var ws := Executed(BreakingSwitch, topic);
        FixedRuns(s, topic, payload, num, ws);
        FixedRuns(FixedDispatch(s, topic, payload), topic, payload, num, ws);
        PerformIdempotent(s, ws, num, payload);
    }
  }
}

=== FILE: dispatcher.dfy ===
/**
 * The MQTT message handler: a telemetry event (topic, payload) becomes zero or
 * more writes to the value store. The payload goes through `parseFloat`
 * first and a NaN ends the handler; then a `switch` on the topic runs, entered
 * at the first matching `case` and left at the first `break`, so a case
 * without `break` falls through into the next one. The switch is given as
 * written, with the name strings its statements pass to `setScalarValue`,
 * and with those names looked up in the registry.
 */
module Dispatcher {
  import opened Wrappers
  import opened JsText
  import opened JsNumber
  import opened Registry
  import opened ValueStore

  /** What a write stores: the rounded payload, or the status code derived from it. */
  datatype Operand = RoundedNumber | StatusCode

  /** One `setScalarValue` statement as written: the scalar's registered name and what it stores. */
  datatype Statement = Statement(name: string, operand: Operand)

  /** One `setScalarValue` statement with its name looked up: the scalar it writes and what it stores. */
  datatype Write = Write(target: ScalarName, operand: Operand)

  /** The topics the switch has a `case` label for. */
  datatype Topic = Voltage | BatteryTemperature | Remaining | Percent | Status | Power

  /** The MQTT topic each label matches. */
  function TopicText(t: Topic): (text: string) {
    match t
    case Voltage => "ups/voltage"
    case BatteryTemperature => "ups/batteryTemperature"
    case Remaining => "ups/remaining"
    case Percent => "ups/percent"
    case Status => "ups/status"
    case Power => "ups/power"
  }

  /** One `case` of the switch: its label, its statements, and whether it ends in `break`. */
  datatype Case<W> = Case(on: Topic, writes: seq<W>, breaks: bool)

  /** The handler's switch as written, case by case in source order; topics matching no label reach `default`, which only logs. */
  const SourceSwitch: seq<Case<Statement>> := [
    Case(Voltage,
      [Statement("upsInputVoltage", RoundedNumber), Statement("upsAdvInputLineVoltage", RoundedNumber)], true),
    Case(BatteryTemperature,
      [Statement("upsAdvBatteryTemperature", RoundedNumber)], false),
    Case(Remaining,
      [Statement("upsAdvBatteryRunTimeRemaining", RoundedNumber)], false),
    Case(Percent,
      [Statement("upsEstimatedChargeRemaining", RoundedNumber), Statement("upsAdvBatteryCapacity", RoundedNumber)], true),
    Case(Status,
      [Statement("upsBasicOutputStatus", StatusCode), Statement("upsBatteryStatus", StatusCode),
       Statement("upsBasicBatteryStatus", StatusCode)], true),
    Case(Power,
      [Statement("upsAdvOutputCurrent", RoundedNumber)], true)
  ]

  /** The handler's switch with every statement's name looked up in the registry (see `SwitchResolved`). */
  const MessageSwitch: seq<Case<Write>> := [
    Case(Voltage,
      [Write(UpsInputVoltage, RoundedNumber), Write(UpsAdvInputLineVoltage, RoundedNumber)], true),
    Case(BatteryTemperature,
      [Write(UpsAdvBatteryTemperature, RoundedNumber)], false),
    Case(Remaining,
      [Write(UpsAdvBatteryRunTimeRemaining, RoundedNumber)], false),
    Case(Percent,
      [Write(UpsEstimatedChargeRemaining, RoundedNumber), Write(UpsAdvBatteryCapacity, RoundedNumber)], true),
    Case(Status,
      [Write(UpsBasicOutputStatus, StatusCode), Write(UpsBatteryStatus, StatusCode),
       Write(UpsBasicBatteryStatus, StatusCode)], true),
    Case(Power,
      [Write(UpsAdvOutputCurrent, RoundedNumber)], true)
  ]

  /** The `case` is selected by `topic`: its label and the topic are the same string. */
  predicate Selects(c: Case<Write>, topic: string) {
    TopicText(c.on) == topic
  }

  /** Position of the first case at or after `from` whose label is `topic`. */
  function CaseIndex(cases: seq<Case<Write>>, topic: string, from: nat): (r: Option<nat>)
    requires from <= |cases|
    ensures r.Some? ==> from <= r.value < |cases| && Selects(cases[r.value], topic)
    ensures r.Some? ==> forall i :: from <= i < r.value ==> !Selects(cases[i], topic)
    ensures r.None? <==> forall i :: from <= i < |cases| ==> !Selects(cases[i], topic)
    decreases |cases| - from
  {
    if from == |cases| then None
    else if Selects(cases[from], topic) then Some(from)
    else CaseIndex(cases, topic, from + 1)
  }

  /** The statements run when control enters the switch at case `i`: that case's, then the next ones' until a `break`. */
  function RunFrom(cases: seq<Case<Write>>, i: nat): (r: seq<Write>)
    requires i < |cases|
    decreases |cases| - i
  {
    cases[i].writes + if cases[i].breaks || i + 1 == |cases| then [] else RunFrom(cases, i + 1)
  }

  /** The statements a topic runs; none when it reaches `default`. */
  function Executed(cases: seq<Case<Write>>, topic: string): (r: seq<Write>) {
    match CaseIndex(cases, topic, 0)
    case None => []
    case Some(i) => RunFrom(cases, i)
  }

  /**
   * Entering at case `i`, control runs that case's statements first; a case
   * ending in `break` (or the last case) runs nothing more, and any other
   * case falls through into the next one.
   */
  lemma RunFromStartsWithCase(cases: seq<Case<Write>>, i: nat)
    requires i < |cases|
    ensures |cases[i].writes| <= |RunFrom(cases, i)|
    ensures RunFrom(cases, i)[..|cases[i].writes|] == cases[i].writes
    ensures cases[i].breaks || i + 1 == |cases| ==> RunFrom(cases, i) == cases[i].writes
    ensures !cases[i].breaks && i + 1 < |cases| ==> RunFrom(cases, i) == cases[i].writes + RunFrom(cases, i + 1)
  {
  }

  /**
   * A topic runs statements only when some label equals it, and then it
   * starts with the statements of the first such case; a topic that some
   * label equals runs from the first case with that label.
   */
  lemma ExecutedStartsAtLabel(cases: seq<Case<Write>>, topic: string)
    ensures (forall i :: 0 <= i < |cases| ==> !Selects(cases[i], topic)) ==> Executed(cases, topic) == []
    ensures forall i :: 0 <= i < |cases| && Selects(cases[i], topic) && (forall h :: 0 <= h < i ==> !Selects(cases[h], topic)) ==>
              Executed(cases, topic) == RunFrom(cases, i)
    ensures Executed(cases, topic) != [] ==>
              exists i :: 0 <= i < |cases| && Selects(cases[i], topic) &&
                (forall h :: 0 <= h < i ==> !Selects(cases[h], topic)) &&
                |cases[i].writes| <= |Executed(cases, topic)| &&
                Executed(cases, topic)[..|cases[i].writes|] == cases[i].writes
  {
    match CaseIndex(cases, topic, 0)
    case None =>
    case Some(i) => RunFromStartsWithCase(cases, i);
    forall i | 0 <= i < |cases| && Selects(cases[i], topic) && (forall h :: 0 <= h < i ==> !Selects(cases[h], topic))
      ensures Executed(cases, topic) == RunFrom(cases, i)
    {
      var first := CaseIndex(cases, topic, 0);
      assert first.Some?;
      assert first.value == i by {
        assert !(first.value < i);
        assert !(i < first.value);
      }
    }
  }

  /** Every statement of every case writes a numeric scalar. */
  predicate SwitchTargetsNumeric(cases: seq<Case<Write>>) {
    forall c, w :: c in cases && w in c.writes ==> IsNumeric(TypeOf(w.target))
  }

  predicate WritesNumeric(ws: seq<Write>) {
    forall w :: w in ws ==> IsNumeric(TypeOf(w.target))
  }

  /** Every statement control runs through comes from some case of the switch. */
  lemma {:induction false} RunFromWithin(cases: seq<Case<Write>>, i: nat)
    requires i < |cases|
    ensures forall w :: w in RunFrom(cases, i) ==> exists c :: c in cases && w in c.writes
    decreases |cases| - i
  {
    if !cases[i].breaks && i + 1 < |cases| {
      RunFromWithin(cases, i + 1);
    }
  }

  lemma ExecutedWithin(cases: seq<Case<Write>>, topic: string)
    ensures forall w :: w in Executed(cases, topic) ==> exists c :: c in cases && w in c.writes
  {
    match CaseIndex(cases, topic, 0)
    case None =>
    case Some(i) => RunFromWithin(cases, i);
  }

  /** The status code the handler writes: 2 (onLine) when the upper-cased payload is "MAINS", else 3. */
  function StatusCodeOf(payload: string): (code: int)
    ensures code == 2 <==> EqualsIgnoringCase(payload, "MAINS")
    ensures code == 2 || code == 3
  {
    ToUpperCaseMatches(payload, "MAINS");
    if ToUpperCase(payload) == "MAINS" then 2 else 3
  }

  /** The number a statement writes, given the parsed payload; a rounded infinity writes nothing. */
  function OperandValue(op: Operand, num: Number, payload: string): (r: Option<int>)
    ensures op == StatusCode ==> r == Some(StatusCodeOf(payload))
    ensures op == RoundedNumber ==> (r.Some? <==> num.Finite?)
    ensures op == RoundedNumber && num.Finite? ==> r == Some(Round(num.value))
  {
    match op
    case StatusCode => Some(StatusCodeOf(payload))
    case RoundedNumber =>
      match num
      case Finite(x) => Some(Round(x))
      case Infinity(_) => None
  }

  /** The scalar a statement overwrites, with the value it leaves there; nothing for a rounded infinity. */
  function StepEffect(w: Write, num: Number, payload: string): (e: map<ScalarName, Value>)
    requires IsNumeric(TypeOf(w.target))
    ensures e.Keys <= {w.target}
    ensures e.Keys == {w.target} <==> OperandValue(w.operand, num, payload).Some?
    ensures w.target in e ==> TypeOfValue(e[w.target]) == TypeOf(w.target)
    ensures w.target in e ==> e[w.target] == NumberAs(TypeOf(w.target), OperandValue(w.operand, num, payload).value)
  {
    match OperandValue(w.operand, num, payload)
    case None => map[]
    case Some(v) => map[w.target := NumberAs(TypeOf(w.target), v)]
  }

  /** One statement run against the store: a `setScalarValue`, or nothing for a rounded infinity. */
  function Step(s: Store, w: Write, num: Number, payload: string): (r: Store)
    requires IsNumeric(TypeOf(w.target))
    ensures r == s + StepEffect(w, num, payload)
  {
    match OperandValue(w.operand, num, payload)
    case None => s
    case Some(v) => SetNumber(s, w.target, v)
  }

  lemma WritesNumericTail(ws: seq<Write>)
    requires ws != [] && WritesNumeric(ws)
    ensures IsNumeric(TypeOf(ws[0].target)) && WritesNumeric(ws[1..])
  {
    assert ws[0] in ws;
    forall w | w in ws[1..] ensures w in ws { }
  }

  /** The statements `ws` run in order against the store. */
  function Perform(s: Store, ws: seq<Write>, num: Number, payload: string): (r: Store)
    requires WritesNumeric(ws)
    decreases |ws|
  {
    if ws == [] then s
    else
      WritesNumericTail(ws);
      Perform(Step(s, ws[0], num, payload), ws[1..], num, payload)
  }

  /** The scalars the statements `ws` name. */
  function Targets(ws: seq<Write>): (t: set<ScalarName>) {
    set w | w in ws :: w.target
  }

  /** The scalars the statements `ws` overwrite, with the values the last of them leaves there. */
  function Effect(ws: seq<Write>, num: Number, payload: string): (e: map<ScalarName, Value>)
    requires WritesNumeric(ws)
    ensures e.Keys <= Targets(ws)
    ensures forall k :: k in e ==> TypeOfValue(e[k]) == TypeOf(k)
    decreases |ws|
  {
    if ws == [] then map[]
    else
      WritesNumericTail(ws);
      assert Targets(ws) == {ws[0].target} + Targets(ws[1..]) by {
        assert forall w :: w in ws <==> w == ws[0] || w in ws[1..];
      }
      StepEffect(ws[0], num, payload) + Effect(ws[1..], num, payload)
  }

  lemma OverrideTwice(s: Store, a: map<ScalarName, Value>, b: map<ScalarName, Value>)
    ensures (s + a) + b == s + (a + b)
  {
  }

  /** Running the statements overwrites exactly the scalars of their effect and leaves the rest alone. */
  lemma {:induction false} PerformIsOverride(s: Store, ws: seq<Write>, num: Number, payload: string)
    requires WritesNumeric(ws)
    ensures Perform(s, ws, num, payload) == s + Effect(ws, num, payload)
    decreases |ws|
  {
    if ws != [] {
      WritesNumericTail(ws);
      var first := StepEffect(ws[0], num, payload);
      PerformIsOverride(s + first, ws[1..], num, payload);
      OverrideTwice(s, first, Effect(ws[1..], num, payload));
    }
  }

  /** Running statements whose targets are numeric scalars keeps the store well typed. */
  lemma PerformWellTyped(s: Store, ws: seq<Write>, num: Number, payload: string)
    requires WritesNumeric(ws)
    requires WellTyped(s)
    ensures WellTyped(Perform(s, ws, num, payload))
  {
    PerformIsOverride(s, ws, num, payload);
  }

  /** Running the same statements on the same payload a second time changes nothing more. */
  lemma PerformIdempotent(s: Store, ws: seq<Write>, num: Number, payload: string)
    requires WritesNumeric(ws)
    ensures Perform(Perform(s, ws, num, payload), ws, num, payload)
         == Perform(s, ws, num, payload)
  {
    var e := Effect(ws, num, payload);
    PerformIsOverride(s, ws, num, payload);
    PerformIsOverride(s + e, ws, num, payload);
    assert (s + e) + e == s + e;
  }

  /** A scalar no statement names keeps its value. */
  lemma PerformLeavesOthers(s: Store, ws: seq<Write>, num: Number, payload: string, k: ScalarName)
    requires WritesNumeric(ws)
    requires k !in Targets(ws)
    ensures k in Perform(s, ws, num, payload) <==> k in s
    ensures k in s ==> Perform(s, ws, num, payload)[k] == s[k]
  {
    PerformIsOverride(s, ws, num, payload);
  }

  /** Running `ws1 + ws2` is running `ws1`, then `ws2`. */
  lemma {:induction false} PerformAppend(s: Store, ws1: seq<Write>, ws2: seq<Write>, num: Number, payload: string)
    requires WritesNumeric(ws1) && WritesNumeric(ws2)
    ensures WritesNumeric(ws1 + ws2)
    ensures Perform(s, ws1 + ws2, num, payload) == Perform(Perform(s, ws1, num, payload), ws2, num, payload)
    decreases |ws1|
  {
    assert forall w :: w in ws1 + ws2 ==> w in ws1 || w in ws2;
    if ws1 != [] {
      WritesNumericTail(ws1);
      assert (ws1 + ws2)[1..] == ws1[1..] + ws2;
      PerformAppend(Step(s, ws1[0], num, payload), ws1[1..], ws2, num, payload);
    } else {
      assert ws1 + ws2 == ws2;
    }
  }

  /** Running a statement and then the rest. */
  lemma PerformCons(s: Store, w: Write, ws: seq<Write>, num: Number, payload: string)
    requires WritesNumeric([w] + ws)
    ensures IsNumeric(TypeOf(w.target)) && WritesNumeric(ws)
    ensures Perform(s, [w] + ws, num, payload) == Perform(Step(s, w, num, payload), ws, num, payload)
  {
    WritesNumericTail([w] + ws);
    assert ([w] + ws)[0] == w && ([w] + ws)[1..] == ws;
  }

  /** One statement run on its own. */
  lemma PerformOne(s: Store, w: Write, num: Number, payload: string)
    requires IsNumeric(TypeOf(w.target))
    ensures Perform(s, [w], num, payload) == Step(s, w, num, payload)
  {
    assert [w][1..] == [];
  }

  /** Two statements run one after the other. */
  lemma PerformPair(s: Store, w: Write, w': Write, num: Number, payload: string)
    requires IsNumeric(TypeOf(w.target)) && IsNumeric(TypeOf(w'.target))
    ensures Perform(s, [w, w'], num, payload) == Step(Step(s, w, num, payload), w', num, payload)
  {
    PerformOne(s, w, num, payload);
    PerformOne(Step(s, w, num, payload), w', num, payload);
    PerformAppend(s, [w], [w'], num, payload);
    assert [w] + [w'] == [w, w'];
  }

  /** A statement writing the rounded payload stores the rounded number, typed by its scalar. */
  lemma StepRounded(s: Store, n: ScalarName, x: real, payload: string)
    requires IsNumeric(TypeOf(n))
    ensures Step(s, Write(n, RoundedNumber), Finite(x), payload) == s[n := NumberAs(TypeOf(n), Round(x))]
  {
  }

  /** The topics the switch has a `case` for. */
  const HandledTopics: set<string> :=
    {"ups/voltage", "ups/batteryTemperature", "ups/remaining", "ups/percent", "ups/status", "ups/power"}

  /** Each label's text is one of the handled topics. */
  lemma LabelsHandled(t: Topic)
    ensures TopicText(t) in HandledTopics
  {
  }

  /** The registered scalars no topic ever writes: they keep their start-up values. */
  const NeverWritten: set<ScalarName> := {
    SysDescr, SysObjectID, SysUpTime, UpsIdentModel, UpsBasicIdentModel, UpsOutputPercentLoad,
    UpsAdvInputMaxLineVoltage, UpsAdvInputLineFailCause, UpsAdvBatteryReplaceIndicator
  }

  /** The scalars some statement of some case of the switch writes. */
  function SwitchTargets(): (t: set<ScalarName>) {
    set c, w | c in MessageSwitch && w in c.writes :: w.target
  }

  lemma TargetAt(i: nat, j: nat)
    requires i < |MessageSwitch| && j < |MessageSwitch[i].writes|
    ensures TypeOf(MessageSwitch[i].writes[j].target) in {Integer, Gauge32}
    ensures MessageSwitch[i].writes[j].target !in NeverWritten
  {
  }

  /** A statement with its name looked up in the registry; none when no scalar is registered under that name. */
  function Resolve(st: Statement): (r: Option<Write>)
    ensures r.Some? ==> NameText(r.value.target) == st.name && r.value.operand == st.operand
    ensures r.None? ==> forall n :: NameText(n) != st.name
  {
    ScalarNamedFound(st.name);
    ScalarNamedMissing(st.name);
    match ScalarNamed(st.name)
    case None => None
    case Some(n) => Some(Write(n, st.operand))
  }

  /** The statement at (i, j) of the switch as written names the scalar of the statement at (i, j) of `MessageSwitch`. */
  lemma StatementNamed(i: nat, j: nat)
    requires i < |MessageSwitch| && j < |MessageSwitch[i].writes|
    ensures |SourceSwitch| == |MessageSwitch| && |SourceSwitch[i].writes| == |MessageSwitch[i].writes|
    ensures SourceSwitch[i].writes[j] == Statement(NameText(MessageSwitch[i].writes[j].target), MessageSwitch[i].writes[j].operand)
  {
  }

  /** The statement at (i, j) of the switch as written resolves to the statement at (i, j) of `MessageSwitch`. */
  lemma StatementResolved(i: nat, j: nat)
    requires i < |MessageSwitch| && j < |MessageSwitch[i].writes|
    ensures |SourceSwitch| == |MessageSwitch| && |SourceSwitch[i].writes| == |MessageSwitch[i].writes|
    ensures Resolve(SourceSwitch[i].writes[j]) == Some(MessageSwitch[i].writes[j])
  {
    StatementNamed(i, j);
    ScalarNamedInverse(MessageSwitch[i].writes[j].target);
  }

  /**
   * Looking up every name of the switch as written gives `MessageSwitch`:
   * the same labels and `break`s, and each statement's name registered to
   * the scalar it writes.
   */
  lemma SwitchResolved()
    ensures |SourceSwitch| == |MessageSwitch|
    ensures forall i :: 0 <= i < |MessageSwitch| ==>
              SourceSwitch[i].on == MessageSwitch[i].on && SourceSwitch[i].breaks == MessageSwitch[i].breaks &&
              |SourceSwitch[i].writes| == |MessageSwitch[i].writes|
    ensures forall i, j :: 0 <= i < |MessageSwitch| && 0 <= j < |MessageSwitch[i].writes| ==>
              Resolve(SourceSwitch[i].writes[j]) == Some(MessageSwitch[i].writes[j])
  {
    forall i, j | 0 <= i < |MessageSwitch| && 0 <= j < |MessageSwitch[i].writes|
      ensures Resolve(SourceSwitch[i].writes[j]) == Some(MessageSwitch[i].writes[j])
    {
      StatementResolved(i, j);
    }
  }

  /**
   * Every name the switch passes to `setScalarValue` is registered, to an
   * Integer or Gauge32 scalar outside `NeverWritten`, so no statement is
   * refused for an unknown name or for a number of the wrong kind.
   */
  lemma SwitchTargetsRegistered()
    ensures forall c, st :: c in SourceSwitch && st in c.writes ==>
              ScalarNamed(st.name).Some? && TypeOf(ScalarNamed(st.name).value) in {Integer, Gauge32}
    ensures forall c, st :: c in SourceSwitch && st in c.writes ==> ScalarNamed(st.name).value !in NeverWritten
    ensures forall c, w :: c in MessageSwitch && w in c.writes ==> TypeOf(w.target) in {Integer, Gauge32}
    ensures forall c, w :: c in MessageSwitch && w in c.writes ==> w.target !in NeverWritten
    ensures SwitchTargetsNumeric(MessageSwitch)
  {
    SwitchResolved();
    forall c, st | c in SourceSwitch && st in c.writes
      ensures ScalarNamed(st.name).Some?
      ensures TypeOf(ScalarNamed(st.name).value) in {Integer, Gauge32} && ScalarNamed(st.name).value !in NeverWritten
    {
      var i :| 0 <= i < |SourceSwitch| && SourceSwitch[i] == c;
      var j :| 0 <= j < |c.writes| && c.writes[j] == st;
      var w := MessageSwitch[i].writes[j];
      ScalarNamedInverse(w.target);
      TargetAt(i, j);
    }
    forall c, w | c in MessageSwitch && w in c.writes
      ensures TypeOf(w.target) in {Integer, Gauge32} && w.target !in NeverWritten
    {
      var i :| 0 <= i < |MessageSwitch| && MessageSwitch[i] == c;
      var j :| 0 <= j < |c.writes| && c.writes[j] == w;
      TargetAt(i, j);
    }
  }

  /** Some statement of the switch writes each scalar outside `NeverWritten`. */
  lemma SwitchReachesOthers(n: ScalarName)
    requires n !in NeverWritten
    ensures n in SwitchTargets()
  {
    var (i, j) :=
      match n
      case UpsInputVoltage => (0, 0)
      case UpsAdvInputLineVoltage => (0, 1)
      case UpsAdvBatteryTemperature => (1, 0)
      case UpsAdvBatteryRunTimeRemaining => (2, 0)
      case UpsEstimatedChargeRemaining => (3, 0)
      case UpsAdvBatteryCapacity => (3, 1)
      case UpsBasicOutputStatus => (4, 0)
      case UpsBatteryStatus => (4, 1)
      case UpsBasicBatteryStatus => (4, 2)
      case _ => (5, 0);
    assert i < |MessageSwitch| && j < |MessageSwitch[i].writes|;
    assert MessageSwitch[i].writes[j].target == n;
    assert MessageSwitch[i] in MessageSwitch && MessageSwitch[i].writes[j] in MessageSwitch[i].writes;
  }

  /** The switch writes exactly the scalars outside `NeverWritten`. */
  lemma SwitchTargetsExactly()
    ensures forall n :: n in SwitchTargets() <==> n !in NeverWritten
  {
    SwitchTargetsRegistered();
    forall n | n !in NeverWritten ensures n in SwitchTargets() {
      SwitchReachesOthers(n);
    }
  }

  /** A topic without a `case` label reaches `default` and runs no statement. */
  lemma UnhandledRunsNothing(topic: string)
    ensures topic !in HandledTopics ==> Executed(MessageSwitch, topic) == []
  {
    if topic !in HandledTopics {
      forall i | 0 <= i < |MessageSwitch| ensures !Selects(MessageSwitch[i], topic) {
        LabelsHandled(MessageSwitch[i].on);
      }
    }
  }

  /** Whatever the topic, the statements it runs write only switch targets, none of them in `NeverWritten`. */
  lemma ExecutedAvoidsNeverWritten(topic: string)
    ensures WritesNumeric(Executed(MessageSwitch, topic))
    ensures Targets(Executed(MessageSwitch, topic)) !! NeverWritten
  {
    SwitchTargetsRegistered();
    ExecutedWithin(MessageSwitch, topic);
  }

  /** The agent's message handler over its own registry and switch. */
  function Dispatch(s: Store, topic: string, payload: string): (r: Store)
    ensures WellTyped(s) ==> WellTyped(r)
    ensures ParseFloat(payload).None? ==> r == s
    ensures topic !in HandledTopics ==> r == s
    ensures forall n :: n in NeverWritten ==> (n in r <==> n in s) && (n in s ==> r[n] == s[n])
  {
    match ParseFloat(payload)
    case None => s
    case Some(num) =>
      var ws := Executed(MessageSwitch, topic);
      ExecutedAvoidsNeverWritten(topic);
      UnhandledRunsNothing(topic);
      PerformIsOverride(s, ws, num, payload);
      Perform(s, ws, num, payload)
  }

  /** Handling the same message twice leaves the store as handling it once. */
  lemma DispatchIdempotent(s: Store, topic: string, payload: string)
    ensures Dispatch(Dispatch(s, topic, payload), topic, payload) == Dispatch(s, topic, payload)
  {
    match ParseFloat(payload)
    case None =>
    case Some(num) =>
      var ws := Executed(MessageSwitch, topic);
      DispatchRuns(s, topic, payload, num, ws);
      DispatchRuns(Dispatch(s, topic, payload), topic, payload, num, ws);
      PerformIdempotent(s, ws, num, payload);
  }

  /** Distinct labels are distinct strings, so a label selects only its own case. */
  lemma SelectsOwnLabel(c: Case<Write>, t: Topic)
    ensures Selects(c, TopicText(t)) <==> c.on == t
  {
  }

  /** The position of each label in the switch; labels are distinct, so the first match is this one. */
  lemma CaseIndexOf(t: Topic)
    ensures CaseIndex(MessageSwitch, TopicText(t), 0) == Some(match t
      case Voltage => 0 case BatteryTemperature => 1 case Remaining => 2
      case Percent => 3 case Status => 4 case Power => 5)
  {
    SelectsOwnLabel(MessageSwitch[0], t);
    SelectsOwnLabel(MessageSwitch[1], t);
    SelectsOwnLabel(MessageSwitch[2], t);
    SelectsOwnLabel(MessageSwitch[3], t);
    SelectsOwnLabel(MessageSwitch[4], t);
    SelectsOwnLabel(MessageSwitch[5], t);
  }

  /** `ups/voltage` writes the input voltage to both voltage scalars. */
  lemma ExecutedVoltage()
    ensures Executed(MessageSwitch, "ups/voltage")
         == [Write(UpsInputVoltage, RoundedNumber), Write(UpsAdvInputLineVoltage, RoundedNumber)]
  {
    CaseIndexOf(Voltage);
  }

  /** `ups/percent` writes both charge scalars, then breaks. */
  lemma ExecutedPercent()
    ensures Executed(MessageSwitch, "ups/percent")
         == [Write(UpsEstimatedChargeRemaining, RoundedNumber), Write(UpsAdvBatteryCapacity, RoundedNumber)]
  {
    CaseIndexOf(Percent);
  }

  /** `ups/remaining` has no `break`: it falls through into `ups/percent`. */
  lemma ExecutedRemaining()
    ensures Executed(MessageSwitch, "ups/remaining")
         == [Write(UpsAdvBatteryRunTimeRemaining, RoundedNumber),
             Write(UpsEstimatedChargeRemaining, RoundedNumber), Write(UpsAdvBatteryCapacity, RoundedNumber)]
  {
    CaseIndexOf(Remaining);
    assert RunFrom(MessageSwitch, 3) == MessageSwitch[3].writes;
  }

  /** `ups/batteryTemperature` has no `break`: it falls through into `ups/remaining` and on into `ups/percent`. */
  lemma ExecutedBatteryTemperature()
    ensures Executed(MessageSwitch, "ups/batteryTemperature")
         == [Write(UpsAdvBatteryTemperature, RoundedNumber), Write(UpsAdvBatteryRunTimeRemaining, RoundedNumber),
             Write(UpsEstimatedChargeRemaining, RoundedNumber), Write(UpsAdvBatteryCapacity, RoundedNumber)]
  {
    CaseIndexOf(BatteryTemperature);
    assert RunFrom(MessageSwitch, 3) == MessageSwitch[3].writes;
    assert RunFrom(MessageSwitch, 2) == MessageSwitch[2].writes + MessageSwitch[3].writes;
  }

  /** `ups/status` writes the status code to the three status scalars. */
  lemma ExecutedStatus()
    ensures Executed(MessageSwitch, "ups/status")
         == [Write(UpsBasicOutputStatus, StatusCode), Write(UpsBatteryStatus, StatusCode),
             Write(UpsBasicBatteryStatus, StatusCode)]
  {
    CaseIndexOf(Status);
  }

  /** `ups/power` writes the output current. */
  lemma ExecutedPower()
    ensures Executed(MessageSwitch, "ups/power") == [Write(UpsAdvOutputCurrent, RoundedNumber)]
  {
    CaseIndexOf(Power);
  }

  /** A payload that reads "MAINS" in any letter case is not a number, so the handler drops it. */
  lemma MainsIsNaN(payload: string)
    requires EqualsIgnoringCase(payload, "MAINS")
    ensures ParseFloat(payload).None?
  {
    assert payload[0] == 'M' || payload[0] == 'm';
    assert SkipWhiteSpace(payload, 0) == 0;
  }

  /** Any payload that passes the NaN guard yields status code 3. */
  lemma ParsedStatusIsBattery(payload: string)
    requires ParseFloat(payload).Some?
    ensures StatusCodeOf(payload) == 3
  {
    if EqualsIgnoringCase(payload, "MAINS") {
      MainsIsNaN(payload);
    }
  }

  /** Past the NaN guard, the handler runs the statements `ws` the topic selects. */
  lemma DispatchRuns(s: Store, topic: string, payload: string, num: Number, ws: seq<Write>)
    requires ParseFloat(payload) == Some(num)
    requires Executed(MessageSwitch, topic) == ws
    ensures WritesNumeric(ws)
    ensures Dispatch(s, topic, payload) == Perform(s, ws, num, payload)
  {
    ExecutedAvoidsNeverWritten(topic);
  }

  /** Two statements that write the rounded payload. */
  lemma PerformRoundedPair(s: Store, a: ScalarName, b: ScalarName, x: real, payload: string)
    requires IsNumeric(TypeOf(a)) && IsNumeric(TypeOf(b))
    ensures Perform(s, [Write(a, RoundedNumber), Write(b, RoundedNumber)], Finite(x), payload)
         == s[a := NumberAs(TypeOf(a), Round(x))][b := NumberAs(TypeOf(b), Round(x))]
  {
    var wa, wb := Write(a, RoundedNumber), Write(b, RoundedNumber);
    PerformPair(s, wa, wb, Finite(x), payload);
    StepRounded(s, a, x, payload);
    StepRounded(Step(s, wa, Finite(x), payload), b, x, payload);
  }

  /** One statement that writes the rounded payload. */
  lemma PerformRoundedOne(s: Store, a: ScalarName, x: real, payload: string)
    requires IsNumeric(TypeOf(a))
    ensures Perform(s, [Write(a, RoundedNumber)], Finite(x), payload) == s[a := NumberAs(TypeOf(a), Round(x))]
  {
    PerformOne(s, Write(a, RoundedNumber), Finite(x), payload);
    StepRounded(s, a, x, payload);
  }

  /** A run whose first statement writes the rounded payload to an Integer scalar: that write, then the rest. */
  lemma PerformIntegerFirst(s: Store, ws: seq<Write>, x: real, payload: string)
    requires WritesNumeric(ws) && ws != []
    requires ws[0].operand == RoundedNumber && TypeOf(ws[0].target) == Integer
    ensures WritesNumeric(ws[1..])
    ensures Perform(s, ws, Finite(x), payload)
         == Perform(s[ws[0].target := Int(Round(x))], ws[1..], Finite(x), payload)
  {
    WritesNumericTail(ws);
    StepRounded(s, ws[0].target, x, payload);
  }

  /** A statement that writes the status code stores it as an Integer. */
  lemma StepStatus(s: Store, n: ScalarName, num: Number, payload: string)
    requires TypeOf(n) == Integer
    ensures Step(s, Write(n, StatusCode), num, payload) == s[n := Int(StatusCodeOf(payload))]
  {
  }

  /** Three statements that write the status code to Integer scalars. */
  lemma PerformStatusThree(s: Store, a: ScalarName, b: ScalarName, c: ScalarName, num: Number, payload: string)
    requires TypeOf(a) == Integer && TypeOf(b) == Integer && TypeOf(c) == Integer
    ensures Perform(s, [Write(a, StatusCode), Write(b, StatusCode), Write(c, StatusCode)], num, payload)
         == s[a := Int(StatusCodeOf(payload))][b := Int(StatusCodeOf(payload))][c := Int(StatusCodeOf(payload))]
  {
    var code := Int(StatusCodeOf(payload));
    var rest := [Write(b, StatusCode), Write(c, StatusCode)];
    assert [Write(a, StatusCode), Write(b, StatusCode), Write(c, StatusCode)] == [Write(a, StatusCode)] + rest;
    PerformCons(s, Write(a, StatusCode), rest, num, payload);
    StepStatus(s, a, num, payload);
    PerformPair(s[a := code], rest[0], rest[1], num, payload);
    StepStatus(s[a := code], b, num, payload);
    StepStatus(s[a := code][b := code], c, num, payload);
  }

  lemma VoltageWrites(s: Store, payload: string, x: real)
    ensures Perform(s, [Write(UpsInputVoltage, RoundedNumber), Write(UpsAdvInputLineVoltage, RoundedNumber)], Finite(x), payload)
         == s[UpsInputVoltage := Int(Round(x))][UpsAdvInputLineVoltage := Gauge(Round(x))]
  {
    PerformRoundedPair(s, UpsInputVoltage, UpsAdvInputLineVoltage, x, payload);
  }

  /** `ups/voltage` fans the rounded payload out to the Integer and the Gauge32 voltage scalars. */
  lemma DispatchVoltage(s: Store, payload: string, x: real)
    requires ParseFloat(payload) == Some(Finite(x))
    ensures Dispatch(s, "ups/voltage", payload)
         == s[UpsInputVoltage := Int(Round(x))][UpsAdvInputLineVoltage := Gauge(Round(x))]
  {
    ExecutedVoltage();
    DispatchRuns(s, "ups/voltage", payload, Finite(x), [Write(UpsInputVoltage, RoundedNumber), Write(UpsAdvInputLineVoltage, RoundedNumber)]);
    VoltageWrites(s, payload, x);
  }

  lemma PercentWrites(s: Store, payload: string, x: real)
    ensures Perform(s, [Write(UpsEstimatedChargeRemaining, RoundedNumber), Write(UpsAdvBatteryCapacity, RoundedNumber)], Finite(x), payload)
         == s[UpsEstimatedChargeRemaining := Int(Round(x))][UpsAdvBatteryCapacity := Int(Round(x))]
  {
    PerformRoundedPair(s, UpsEstimatedChargeRemaining, UpsAdvBatteryCapacity, x, payload);
  }

  /** `ups/percent` fans the rounded payload out to both charge scalars. */
  lemma DispatchPercent(s: Store, payload: string, x: real)
    requires ParseFloat(payload) == Some(Finite(x))
    ensures Dispatch(s, "ups/percent", payload)
         == s[UpsEstimatedChargeRemaining := Int(Round(x))][UpsAdvBatteryCapacity := Int(Round(x))]
  {
    ExecutedPercent();
    DispatchRuns(s, "ups/percent", payload, Finite(x), [Write(UpsEstimatedChargeRemaining, RoundedNumber), Write(UpsAdvBatteryCapacity, RoundedNumber)]);
    PercentWrites(s, payload, x);
  }

  lemma RemainingWrites(s: Store, payload: string, x: real)
    ensures Perform(s, [Write(UpsAdvBatteryRunTimeRemaining, RoundedNumber), Write(UpsEstimatedChargeRemaining, RoundedNumber), Write(UpsAdvBatteryCapacity, RoundedNumber)], Finite(x), payload)
         == s[UpsAdvBatteryRunTimeRemaining := Int(Round(x))][UpsEstimatedChargeRemaining := Int(Round(x))][UpsAdvBatteryCapacity := Int(Round(x))]
  {
    var ws := [Write(UpsAdvBatteryRunTimeRemaining, RoundedNumber), Write(UpsEstimatedChargeRemaining, RoundedNumber), Write(UpsAdvBatteryCapacity, RoundedNumber)];
    assert ws[1..] == [Write(UpsEstimatedChargeRemaining, RoundedNumber), Write(UpsAdvBatteryCapacity, RoundedNumber)];
    PerformIntegerFirst(s, ws, x, payload);
    PercentWrites(s[UpsAdvBatteryRunTimeRemaining := Int(Round(x))], payload, x);
  }

  /** `ups/remaining` falls through: the run time, and then both charge scalars, get the rounded payload. */
  lemma DispatchRemaining(s: Store, payload: string, x: real)
    requires ParseFloat(payload) == Some(Finite(x))
    ensures Dispatch(s, "ups/remaining", payload)
         == s[UpsAdvBatteryRunTimeRemaining := Int(Round(x))][UpsEstimatedChargeRemaining := Int(Round(x))][UpsAdvBatteryCapacity := Int(Round(x))]
  {
    ExecutedRemaining();
    DispatchRuns(s, "ups/remaining", payload, Finite(x), [Write(UpsAdvBatteryRunTimeRemaining, RoundedNumber), Write(UpsEstimatedChargeRemaining, RoundedNumber), Write(UpsAdvBatteryCapacity, RoundedNumber)]);
    RemainingWrites(s, payload, x);
  }

  lemma BatteryTemperatureWrites(s: Store, payload: string, x: real)
    ensures Perform(s, [Write(UpsAdvBatteryTemperature, RoundedNumber), Write(UpsAdvBatteryRunTimeRemaining, RoundedNumber), Write(UpsEstimatedChargeRemaining, RoundedNumber), Write(UpsAdvBatteryCapacity, RoundedNumber)], Finite(x), payload)
         == s[UpsAdvBatteryTemperature := Int(Round(x))][UpsAdvBatteryRunTimeRemaining := Int(Round(x))][UpsEstimatedChargeRemaining := Int(Round(x))][UpsAdvBatteryCapacity := Int(Round(x))]
  {
    var ws := [Write(UpsAdvBatteryTemperature, RoundedNumber), Write(UpsAdvBatteryRunTimeRemaining, RoundedNumber), Write(UpsEstimatedChargeRemaining, RoundedNumber), Write(UpsAdvBatteryCapacity, RoundedNumber)];
    assert ws[1..] == [Write(UpsAdvBatteryRunTimeRemaining, RoundedNumber), Write(UpsEstimatedChargeRemaining, RoundedNumber), Write(UpsAdvBatteryCapacity, RoundedNumber)];
    PerformIntegerFirst(s, ws, x, payload);
    RemainingWrites(s[UpsAdvBatteryTemperature := Int(Round(x))], payload, x);
  }

  /**
   * `ups/batteryTemperature` falls through twice: the temperature, the run
   * time and both charge scalars all get the rounded payload.
   */
  lemma DispatchBatteryTemperature(s: Store, payload: string, x: real)
    requires ParseFloat(payload) == Some(Finite(x))
    ensures Dispatch(s, "ups/batteryTemperature", payload)
         == s[UpsAdvBatteryTemperature := Int(Round(x))][UpsAdvBatteryRunTimeRemaining := Int(Round(x))][UpsEstimatedChargeRemaining := Int(Round(x))][UpsAdvBatteryCapacity := Int(Round(x))]
  {
    ExecutedBatteryTemperature();
    DispatchRuns(s, "ups/batteryTemperature", payload, Finite(x), [Write(UpsAdvBatteryTemperature, RoundedNumber), Write(UpsAdvBatteryRunTimeRemaining, RoundedNumber), Write(UpsEstimatedChargeRemaining, RoundedNumber), Write(UpsAdvBatteryCapacity, RoundedNumber)]);
    BatteryTemperatureWrites(s, payload, x);
  }

  lemma PowerWrites(s: Store, payload: string, x: real)
    ensures Perform(s, [Write(UpsAdvOutputCurrent, RoundedNumber)], Finite(x), payload)
         == s[UpsAdvOutputCurrent := Int(Round(x))]
  {
    PerformRoundedOne(s, UpsAdvOutputCurrent, x, payload);
  }

  /** `ups/power` writes the rounded payload to the output current. */
  lemma DispatchPower(s: Store, payload: string, x: real)
    requires ParseFloat(payload) == Some(Finite(x))
    ensures Dispatch(s, "ups/power", payload)
         == s[UpsAdvOutputCurrent := Int(Round(x))]
  {
    ExecutedPower();
    DispatchRuns(s, "ups/power", payload, Finite(x), [Write(UpsAdvOutputCurrent, RoundedNumber)]);
    PowerWrites(s, payload, x);
  }

  lemma StatusWrites(s: Store, payload: string, num: Number)
    requires StatusCodeOf(payload) == 3
    ensures Perform(s, [Write(UpsBasicOutputStatus, StatusCode), Write(UpsBatteryStatus, StatusCode), Write(UpsBasicBatteryStatus, StatusCode)], num, payload)
         == s[UpsBasicOutputStatus := Int(3)][UpsBatteryStatus := Int(3)][UpsBasicBatteryStatus := Int(3)]
  {
    PerformStatusThree(s, UpsBasicOutputStatus, UpsBatteryStatus, UpsBasicBatteryStatus, num, payload);
  }

  /**
   * `ups/status` writes code 3 to all three status scalars whenever it writes
   * anything: a payload that parses as a number is never "MAINS".
   */
  lemma DispatchStatus(s: Store, payload: string)
    requires ParseFloat(payload).Some?
    ensures Dispatch(s, "ups/status", payload)
         == s[UpsBasicOutputStatus := Int(3)][UpsBatteryStatus := Int(3)][UpsBasicBatteryStatus := Int(3)]
  {
    var num := ParseFloat(payload).value;
    ExecutedStatus();
    DispatchRuns(s, "ups/status", payload, num, [Write(UpsBasicOutputStatus, StatusCode), Write(UpsBatteryStatus, StatusCode), Write(UpsBasicBatteryStatus, StatusCode)]);
    ParsedStatusIsBattery(payload);
    StatusWrites(s, payload, num);
  }

  /** A "MAINS" status message, in any letter case, leaves the store unchanged. */
  lemma DispatchMainsIgnored(s: Store, payload: string)
    requires EqualsIgnoringCase(payload, "MAINS")
    ensures Dispatch(s, "ups/status", payload) == s
  {
    MainsIsNaN(payload);
  }
}

=== FILE: js_number.dfy ===
/**
 * JavaScript's `parseFloat` and `Math.round`, over mathematical reals.
 *
 * `parseFloat` skips leading white space and reads the longest prefix that is a
 * StrDecimalLiteral of ECMAScript (optional sign, then `Infinity` or decimal
 * digits with an optional point and an optional exponent); when no prefix
 * qualifies the result is NaN, written `None` here.
 */
module JsNumber {
  import opened Wrappers
  import opened JsText

  /** A non-NaN JavaScript number: a finite value or a signed infinity. */
  datatype Number = Finite(value: real) | Infinity(negative: bool)

  predicate IsDigit(c: char) { '0' <= c <= '9' }

  predicate AllDigits(d: string) {
    forall k :: 0 <= k < |d| ==> IsDigit(d[k])
  }

  function DigitValue(c: char): (v: nat)
    requires IsDigit(c)
    ensures v <= 9
  {
    c as int - '0' as int
  }

  /** End of the maximal run of decimal digits starting at `i`. */
  function DigitsEnd(s: string, i: nat): (j: nat)
    requires i <= |s|
    ensures i <= j <= |s|
    ensures AllDigits(s[i..j])
    ensures j < |s| ==> !IsDigit(s[j])
    decreases |s| - i
  {
    if i < |s| && IsDigit(s[i]) then DigitsEnd(s, i + 1) else i
  }

  /** The natural number a string of decimal digits denotes, most significant digit first. */
  function NatValue(d: string): (v: nat)
    requires AllDigits(d)
  {
    if d == [] then 0 else 10 * NatValue(d[..|d| - 1]) + DigitValue(d[|d| - 1])
  }

  function Pow10(n: nat): (p: nat)
    ensures p >= 1
  {
    if n == 0 then 1 else 10 * Pow10(n - 1)
  }

  /** The factor 10^e, for an exponent of either sign. */
  function Scale(e: int): (r: real)
    ensures r > 0.0
    ensures e == 0 ==> r == 1.0
  {
    if e >= 0 then Pow10(e) as real else 1.0 / Pow10(-e) as real
  }

  /** The value of the digits after a decimal point: "5" is 0.5, "25" is 0.25. */
  function FractionValue(d: string): (r: real)
    requires AllDigits(d)
    ensures 0.0 <= r
  {
    NatValue(d) as real / Pow10(|d|) as real
  }

  /** An optional `+` or `-` at `i`: whether it was `-`, and where the rest begins. */
  function SignAt(s: string, i: nat): (r: (bool, nat))
    requires i <= |s|
    ensures i <= r.1 <= |s| && r.1 <= i + 1
    ensures r.1 == i + 1 <==> i < |s| && (s[i] == '-' || s[i] == '+')
    ensures r.0 <==> i < |s| && s[i] == '-'
  {
    if i < |s| && s[i] == '-' then (true, i + 1)
    else if i < |s| && s[i] == '+' then (false, i + 1)
    else (false, i)
  }

  /**
   * An ExponentPart starting at `i`: its value and where it ends. An `e` that
   * is not followed by digits is not part of the literal: the result is then
   * exponent 0 ending at `i`.
   */
  function ExponentAt(s: string, i: nat): (r: (int, nat))
    requires i <= |s|
    ensures i <= r.1 <= |s|
    ensures r.1 == i ==> r.0 == 0
    ensures r.1 > i ==> s[i] == 'e' || s[i] == 'E'
  {
    if i < |s| && (s[i] == 'e' || s[i] == 'E') then
      var (negative, k) := SignAt(s, i + 1);
      var j := DigitsEnd(s, k);
      if j == k then (0, i)
      else
        var m: int := NatValue(s[k..j]);
        (if negative then -m else m, j)
    else (0, i)
  }

  predicate HasInfinityAt(s: string, k: nat) {
    k + 8 <= |s| && s[k..k + 8] == "Infinity"
  }

  /** After leading white space, `s` starts with a character a StrDecimalLiteral can start with. */
  predicate StartsNumeric(s: string) {
    var i := SkipWhiteSpace(s, 0);
    i < |s| && (IsDigit(s[i]) || s[i] == '+' || s[i] == '-' || s[i] == '.' || s[i] == 'I')
  }

  /** After leading white space, `s` starts with a decimal digit. */
  predicate StartsWithDigit(s: string) {
    var i := SkipWhiteSpace(s, 0);
    i < |s| && IsDigit(s[i])
  }

  lemma ProductNonNegative(a: real, b: real)
    requires 0.0 <= a && 0.0 <= b
    ensures 0.0 <= a * b
  {
  }

  /**
   * A StrUnsignedDecimalLiteral other than `Infinity` at `k`: digits with an
   * optional point and fraction, or a point and a fraction, then an optional
   * exponent; at least one digit before the exponent.
   */
  function UnsignedDecimalAt(s: string, k: nat): (r: Option<real>)
    requires k <= |s|
    ensures r.Some? ==> k < |s| && (IsDigit(s[k]) || s[k] == '.')
    ensures k < |s| && IsDigit(s[k]) ==> r.Some?
    ensures r.Some? ==> 0.0 <= r.value
  {
    var a := DigitsEnd(s, k);
    var point := a < |s| && s[a] == '.';
    var b := if point then DigitsEnd(s, a + 1) else a;
    if a == k && (!point || b == a + 1) then None
    else
      var fraction := if point then s[a + 1..b] else "";
      var mantissa := NatValue(s[k..a]) as real + FractionValue(fraction);
      var scale := Scale(ExponentAt(s, b).0);
      ProductNonNegative(mantissa, scale);
      Some(mantissa * scale)
  }

  /** `parseFloat(s)`; `None` stands for NaN. */
  function ParseFloat(s: string): (r: Option<Number>)
    ensures r.Some? ==> StartsNumeric(s)
    ensures StartsWithDigit(s) ==> r.Some? && r.value.Finite?
  {
    var i := SkipWhiteSpace(s, 0);
    var (negative, k) := SignAt(s, i);
    if HasInfinityAt(s, k) then Some(Infinity(negative))
    else
      match UnsignedDecimalAt(s, k)
      case None => None
      case Some(m) => Some(Finite(if negative then -m else m))
  }

  lemma DigitsEndOfDigits(s: string, i: nat)
    requires i <= |s| && AllDigits(s[i..])
    ensures DigitsEnd(s, i) == |s|
  {
  }

  /** The pieces `UnsignedDecimalAt` reads off a plain string of digits: all of it, no fraction, no exponent. */
  lemma DigitsOnlyParts(d: string)
    requires |d| > 0 && AllDigits(d)
    ensures DigitsEnd(d, 0) == |d| && d[0..|d|] == d
    ensures ExponentAt(d, |d|) == (0, |d|) && Scale(0) == 1.0
    ensures FractionValue("") == 0.0
  {
    assert d[0..] == d;
    DigitsEndOfDigits(d, 0);
  }

  lemma UnsignedDecimalOfDigits(d: string)
    requires |d| > 0 && AllDigits(d)
    ensures UnsignedDecimalAt(d, 0) == Some(NatValue(d) as real)
  {
    DigitsOnlyParts(d);
  }

  /** A plain string of decimal digits parses to the natural number it spells. */
  lemma ParseFloatDigits(d: string)
    requires |d| > 0 && AllDigits(d)
    ensures ParseFloat(d) == Some(Finite(NatValue(d) as real))
  {
    assert IsDigit(d[0]);
    assert SkipWhiteSpace(d, 0) == 0;
    assert SignAt(d, 0) == (false, 0);
    assert !HasInfinityAt(d, 0);
    UnsignedDecimalOfDigits(d);
  }

  /** Math.round: the nearest integer, a tie going toward +infinity. */
  function Round(x: real): (n: int)
    ensures n as real - 0.5 <= x < n as real + 0.5
  {
    (x + 0.5).Floor
  }

  /** The integer the rounding law picks is the only one within half a unit below and under half above. */
  lemma RoundUnique(x: real, m: int)
    requires m as real - 0.5 <= x < m as real + 0.5
    ensures Round(x) == m
  {
  }

  /** Rounding moves a number by at most one half. */
  lemma RoundDistance(x: real)
    ensures -0.5 <= Round(x) as real - x <= 0.5
  {
  }

  /** Ties go up, also below zero: -2.5 rounds to -2, not to -3. */
  lemma RoundTiesUp(k: int)
    ensures Round(k as real + 0.5) == k + 1
  {
  }

  lemma RoundFixesIntegers(k: int)
    ensures Round(k as real) == k
  {
  }
}

=== FILE: js_text.dfy ===
/**
 * The two pieces of JavaScript string behaviour the message handler relies on:
 * the white space that `parseFloat` skips, and `String.prototype.toUpperCase`
 * on the letters that upper-case to an ASCII capital.
 */
module JsText {

  /** StrWhiteSpaceChar of ECMAScript: a WhiteSpace or LineTerminator code point. */
  predicate IsStrWhiteSpace(c: char) {
    || c == '\t' || c == '\U{000B}' || c == '\U{000C}' || c == ' '
    || c == '\U{00A0}' || c == '\U{FEFF}' || c == '\U{1680}'
    || ('\U{2000}' <= c <= '\U{200A}')
    || c == '\U{202F}' || c == '\U{205F}' || c == '\U{3000}'
    || c == '\n' || c == '\r' || c == '\U{2028}' || c == '\U{2029}'
  }

  /** Index of the first character at or after `i` that is not white space. */
  function SkipWhiteSpace(s: string, i: nat): (j: nat)
    requires i <= |s|
    ensures i <= j <= |s|
    ensures forall k :: i <= k < j ==> IsStrWhiteSpace(s[k])
    ensures j < |s| ==> !IsStrWhiteSpace(s[j])
    decreases |s| - i
  {
    if i < |s| && IsStrWhiteSpace(s[i]) then SkipWhiteSpace(s, i + 1) else i
  }

  /**
   * The lower-case letters `toUpperCase` turns into an ASCII capital: the
   * ASCII ones, dotless i (U+0131, raised to I) and long s (U+017F, raised to S).
   */
  predicate IsLower(c: char) { 'a' <= c <= 'z' || c == '\U{0131}' || c == '\U{017F}' }

  predicate IsUpper(c: char) { 'A' <= c <= 'Z' }

  function UpperChar(c: char): (u: char)
    ensures !IsLower(u)
    ensures IsLower(c) ==> IsUpper(u)
    ensures 'a' <= c <= 'z' ==> u as int + 32 == c as int
    ensures c == '\U{0131}' ==> u == 'I'
    ensures c == '\U{017F}' ==> u == 'S'
    ensures !IsLower(c) ==> u == c
  {
    if 'a' <= c <= 'z' then (c as int - 32) as char
    else if c == '\U{0131}' then 'I'
    else if c == '\U{017F}' then 'S'
    else c
  }

  function LowerChar(c: char): (l: char)
    ensures IsUpper(c) ==> 'a' <= l <= 'z' && l as int == c as int + 32
    ensures !IsUpper(c) ==> l == c
  {
    if IsUpper(c) then (c as int + 32) as char else c
  }

  /** `toUpperCase`: the letters of `IsLower` are raised, every other character is kept. */
  function ToUpperCase(s: string): (u: string)
    ensures |u| == |s|
    ensures forall i :: 0 <= i < |u| ==> !IsLower(u[i])
    ensures forall i :: 0 <= i < |s| && !IsLower(s[i]) ==> u[i] == s[i]
  {
    seq(|s|, i requires 0 <= i < |s| => UpperChar(s[i]))
  }

  /** `c` is the capital `cap` itself or a lower-case letter `toUpperCase` raises to it. */
  predicate CaseVariant(c: char, cap: char) {
    || c == cap
    || c == LowerChar(cap)
    || (cap == 'I' && c == '\U{0131}')
    || (cap == 'S' && c == '\U{017F}')
  }

  /** `s` spells `word` up to letter case; `word` is written in capitals. */
  predicate EqualsIgnoringCase(s: string, word: string) {
    && |s| == |word|
    && forall i :: 0 <= i < |s| ==> CaseVariant(s[i], word[i])
  }

  /** A character upper-cases to a character that is not a lower-case letter exactly when it is one of its case variants. */
  lemma UpperCharMatches(c: char, cap: char)
    requires !IsLower(cap)
    ensures UpperChar(c) == cap <==> CaseVariant(c, cap)
  {
  }

  /** Upper-casing `s` gives the capitalised `word` exactly when `s` spells `word` in any letter case. */
  lemma ToUpperCaseMatches(s: string, word: string)
    requires forall i :: 0 <= i < |word| ==> !IsLower(word[i])
    ensures ToUpperCase(s) == word <==> EqualsIgnoringCase(s, word)
  {
    var u := ToUpperCase(s);
    if |s| == |word| {
      forall i | 0 <= i < |s|
        ensures u[i] == word[i] <==> CaseVariant(s[i], word[i])
      {
        assert u[i] == UpperChar(s[i]);
        UpperCharMatches(s[i], word[i]);
      }
      if EqualsIgnoringCase(s, word) {
        assert u == word;
      }
    }
  }
}

=== FILE: registry.dfy ===
/**
 * The scalar registry of the simulated APC UPS: nineteen read-only scalar
 * providers, in registration order. Names come from SNMPv2-MIB, from the
 * UPS-MIB of RFC 1628 (OIDs under 1.3.6.1.2.1.33) and from APC's PowerNet-MIB
 * (OIDs under 1.3.6.1.4.1.318). Every provider is of provider type Scalar.
 *
 * The registered names form a closed set, `ScalarName`; `ProviderOf` gives
 * the registry entry of each, and `NameText` the string it is registered under.
 */
module Registry {
  import opened Wrappers

  datatype ScalarType = OctetString | ObjectIdentifier | TimeTicks | Integer | Gauge32

  /** The only access mode the registry uses. */
  datatype MaxAccess = ReadOnly

  /** A scalar provider; `enumeration` maps each allowed integer code to its name. */
  datatype Provider = Provider(
    name: string,
    oid: seq<nat>,
    scalarType: ScalarType,
    maxAccess: MaxAccess,
    enumeration: Option<map<int, string>>)

  /** The registered scalars. */
  datatype ScalarName =
    | SysDescr | SysObjectID | SysUpTime
    | UpsBasicOutputStatus | UpsAdvInputLineFailCause
    | UpsIdentModel | UpsBatteryStatus | UpsEstimatedChargeRemaining | UpsInputVoltage | UpsOutputPercentLoad
    | UpsBasicIdentModel | UpsAdvBatteryCapacity | UpsAdvBatteryRunTimeRemaining | UpsBasicBatteryStatus
    | UpsAdvBatteryReplaceIndicator | UpsAdvInputMaxLineVoltage | UpsAdvOutputCurrent | UpsAdvInputLineVoltage
    | UpsAdvBatteryTemperature

  predicate IsNumeric(t: ScalarType) {
    t == TimeTicks || t == Integer || t == Gauge32
  }

  const SystemGroup: seq<nat> := [1, 3, 6, 1, 2, 1, 1]
  const UpsMib: seq<nat> := [1, 3, 6, 1, 2, 1, 33]
  const PowerNetMib: seq<nat> := [1, 3, 6, 1, 4, 1, 318]

  const OutputStatusCodes: map<int, string> :=
    map[1 := "unknown", 2 := "onLine", 3 := "onBattery", 4 := "onBoost", 5 := "onBuck"]

  const LineFailCauseCodes: map<int, string> :=
    map[1 := "noTransfer", 2 := "highLineVoltage", 3 := "brownout", 4 := "blackout",
        5 := "smallMomentarySag", 6 := "deepMomentarySag", 7 := "smallMomentarySpike",
        8 := "largeMomentarySpike", 9 := "selfTest", 10 := "rateOfVoltageChange"]

  const UpsBatteryStatusCodes: map<int, string> :=
    map[1 := "unknown", 2 := "batteryNormal", 3 := "batteryLow", 4 := "batteryDepleted"]

  const BasicBatteryStatusCodes: map<int, string> :=
    map[1 := "unknown", 2 := "batteryNormal", 3 := "batteryLow", 4 := "batteryInFaultCondition"]

  const ReplaceIndicatorCodes: map<int, string> :=
    map[1 := "noBatteryNeedsReplacing", 2 := "batteryNeedsReplacing"]

  /** The name each scalar is registered under. */
  function NameText(n: ScalarName): (name: string) {
    match n
    case SysDescr => "sysDescr"
    case SysObjectID => "sysObjectID"
    case SysUpTime => "sysUpTime"
    case UpsBasicOutputStatus => "upsBasicOutputStatus"
    case UpsAdvInputLineFailCause => "upsAdvInputLineFailCause"
    case UpsIdentModel => "upsIdentModel"
    case UpsBatteryStatus => "upsBatteryStatus"
    case UpsEstimatedChargeRemaining => "upsEstimatedChargeRemaining"
    case UpsInputVoltage => "upsInputVoltage"
    case UpsOutputPercentLoad => "upsOutputPercentLoad"
    case UpsBasicIdentModel => "upsBasicIdentModel"
    case UpsAdvBatteryCapacity => "upsAdvBatteryCapacity"
    case UpsAdvBatteryRunTimeRemaining => "upsAdvBatteryRunTimeRemaining"
    case UpsBasicBatteryStatus => "upsBasicBatteryStatus"
    case UpsAdvBatteryReplaceIndicator => "upsAdvBatteryReplaceIndicator"
    case UpsAdvInputMaxLineVoltage => "upsAdvInputMaxLineVoltage"
    case UpsAdvOutputCurrent => "upsAdvOutputCurrent"
    case UpsAdvInputLineVoltage => "upsAdvInputLineVoltage"
    case UpsAdvBatteryTemperature => "upsAdvBatteryTemperature"
  }

  /** The OID each scalar is registered at. */
  function OidOf(n: ScalarName): (oid: seq<nat>) {
    match n
    case SysDescr => SystemGroup + [1]
    case SysObjectID => SystemGroup + [2]
    case SysUpTime => SystemGroup + [3]
    case UpsBasicOutputStatus => PowerNetMib + [1, 1, 1, 4, 1, 1]
    case UpsAdvInputLineFailCause => PowerNetMib + [1, 1, 1, 3, 2, 5]
    case UpsIdentModel => UpsMib + [1, 1, 2]
    case UpsBatteryStatus => UpsMib + [1, 2, 1]
    case UpsEstimatedChargeRemaining => UpsMib + [1, 2, 4]
    case UpsInputVoltage => UpsMib + [1, 3, 3, 1, 3]
    case UpsOutputPercentLoad => UpsMib + [1, 4, 4, 1, 5]
    case UpsBasicIdentModel => PowerNetMib + [1, 1, 1, 1, 1, 1]
    case UpsAdvBatteryCapacity => PowerNetMib + [1, 1, 1, 2, 2, 1]
    case UpsAdvBatteryRunTimeRemaining => PowerNetMib + [1, 1, 1, 2, 2, 3]
    case UpsBasicBatteryStatus => PowerNetMib + [1, 1, 1, 2, 1, 1]
    case UpsAdvBatteryReplaceIndicator => PowerNetMib + [1, 1, 1, 2, 2, 4]
    case UpsAdvInputMaxLineVoltage => PowerNetMib + [1, 1, 1, 3, 2, 2]
    case UpsAdvOutputCurrent => PowerNetMib + [1, 1, 1, 4, 2, 4]
    case UpsAdvInputLineVoltage => PowerNetMib + [1, 1, 1, 3, 2, 1]
    case UpsAdvBatteryTemperature => PowerNetMib + [1, 1, 1, 2, 2, 2]
  }

  /** The SNMP type of each scalar. */
  function TypeOf(n: ScalarName): (t: ScalarType) {
    match n
    case SysDescr => OctetString
    case SysObjectID => ObjectIdentifier
    case SysUpTime => TimeTicks
    case UpsBasicOutputStatus => Integer
    case UpsAdvInputLineFailCause => Integer
    case UpsIdentModel => OctetString
    case UpsBatteryStatus => Integer
    case UpsEstimatedChargeRemaining => Integer
    case UpsInputVoltage => Integer
    case UpsOutputPercentLoad => Integer
    case UpsBasicIdentModel => OctetString
    case UpsAdvBatteryCapacity => Integer
    case UpsAdvBatteryRunTimeRemaining => Integer
    case UpsBasicBatteryStatus => Integer
    case UpsAdvBatteryReplaceIndicator => Integer
    case UpsAdvInputMaxLineVoltage => Integer
    case UpsAdvOutputCurrent => Integer
    case UpsAdvInputLineVoltage => Gauge32
    case UpsAdvBatteryTemperature => Integer
  }

  /** The named codes of each enumerated scalar. */
  function EnumerationOf(n: ScalarName): (e: Option<map<int, string>>) {
    match n
    case SysDescr => None
    case SysObjectID => None
    case SysUpTime => None
    case UpsBasicOutputStatus => Some(OutputStatusCodes)
    case UpsAdvInputLineFailCause => Some(LineFailCauseCodes)
    case UpsIdentModel => None
    case UpsBatteryStatus => Some(UpsBatteryStatusCodes)
    case UpsEstimatedChargeRemaining => None
    case UpsInputVoltage => None
    case UpsOutputPercentLoad => None
    case UpsBasicIdentModel => None
    case UpsAdvBatteryCapacity => None
    case UpsAdvBatteryRunTimeRemaining => None
    case UpsBasicBatteryStatus => Some(BasicBatteryStatusCodes)
    case UpsAdvBatteryReplaceIndicator => Some(ReplaceIndicatorCodes)
    case UpsAdvInputMaxLineVoltage => None
    case UpsAdvOutputCurrent => None
    case UpsAdvInputLineVoltage => None
    case UpsAdvBatteryTemperature => None
  }

  /** The registry entry of each scalar; every provider is read-only. */
  function ProviderOf(n: ScalarName): (p: Provider) {
    Provider(NameText(n), OidOf(n), TypeOf(n), ReadOnly, EnumerationOf(n))
  }

  /** The scalars in the order they are registered. */
  const Registered: seq<ScalarName> := [
    SysDescr, SysObjectID, SysUpTime,
    UpsBasicOutputStatus, UpsAdvInputLineFailCause,
    UpsIdentModel, UpsBatteryStatus, UpsEstimatedChargeRemaining, UpsInputVoltage, UpsOutputPercentLoad,
    UpsBasicIdentModel, UpsAdvBatteryCapacity, UpsAdvBatteryRunTimeRemaining, UpsBasicBatteryStatus,
    UpsAdvBatteryReplaceIndicator, UpsAdvInputMaxLineVoltage, UpsAdvOutputCurrent, UpsAdvInputLineVoltage,
    UpsAdvBatteryTemperature
  ]

  /** The providers, in registration order. */
  function Providers(): (ps: seq<Provider>)
    ensures |ps| == |Registered|
    ensures forall i :: 0 <= i < |ps| ==> ps[i] == ProviderOf(Registered[i])
  {
    seq(|Registered|, i requires 0 <= i < |Registered| => ProviderOf(Registered[i]))
  }

  /** The table lists nineteen providers, and each is found again by its name and by its OID. */
  lemma ProvidersFound()
    ensures |Providers()| == 19
    ensures forall i :: 0 <= i < |Providers()| ==> ScalarNamed(Providers()[i].name) == Some(Registered[i])
    ensures forall i :: 0 <= i < |Providers()| ==> ScalarAt(Providers()[i].oid) == Some(Registered[i])
  {
    forall i | 0 <= i < |Providers()|
      ensures ScalarNamed(Providers()[i].name) == Some(Registered[i])
      ensures ScalarAt(Providers()[i].oid) == Some(Registered[i])
    {
      ScalarNamedInverse(Registered[i]);
      ScalarAtInverse(Registered[i]);
    }
  }

  /** Position of each scalar in the registration order. */
  function RegistrationIndex(n: ScalarName): (i: nat)
    ensures i < |Registered| && Registered[i] == n
  {
    match n
    case SysDescr => 0
    case SysObjectID => 1
    case SysUpTime => 2
    case UpsBasicOutputStatus => 3
    case UpsAdvInputLineFailCause => 4
    case UpsIdentModel => 5
    case UpsBatteryStatus => 6
    case UpsEstimatedChargeRemaining => 7
    case UpsInputVoltage => 8
    case UpsOutputPercentLoad => 9
    case UpsBasicIdentModel => 10
    case UpsAdvBatteryCapacity => 11
    case UpsAdvBatteryRunTimeRemaining => 12
    case UpsBasicBatteryStatus => 13
    case UpsAdvBatteryReplaceIndicator => 14
    case UpsAdvInputMaxLineVoltage => 15
    case UpsAdvOutputCurrent => 16
    case UpsAdvInputLineVoltage => 17
    case UpsAdvBatteryTemperature => 18
  }

  /** Each scalar is registered at exactly one position. */
  lemma RegisteredOnce()
    ensures forall i, j :: 0 <= i < |Registered| && 0 <= j < |Registered| && Registered[i] == Registered[j] ==> i == j
  {
    forall i, j | 0 <= i < |Registered| && 0 <= j < |Registered| && Registered[i] == Registered[j]
      ensures i == j
    {
      assert RegistrationIndex(Registered[i]) == i;
      assert RegistrationIndex(Registered[j]) == j;
    }
  }

  /**
   * The scalar registered under `text`, if any. The names are grouped by
   * length, so a lookup compares `text` with at most two of them.
   */
  function ScalarNamed(text: string): (r: Option<ScalarName>) {
    match |text|
    case 8 => if text == NameText(SysDescr) then Some(SysDescr) else None
    case 9 => if text == NameText(SysUpTime) then Some(SysUpTime) else None
    case 11 => if text == NameText(SysObjectID) then Some(SysObjectID) else None
    case 13 => if text == NameText(UpsIdentModel) then Some(UpsIdentModel) else None
    case 15 => if text == NameText(UpsInputVoltage) then Some(UpsInputVoltage) else None
    case 16 => if text == NameText(UpsBatteryStatus) then Some(UpsBatteryStatus) else None
    case 18 => if text == NameText(UpsBasicIdentModel) then Some(UpsBasicIdentModel) else None
    case 19 => if text == NameText(UpsAdvOutputCurrent) then Some(UpsAdvOutputCurrent) else None
    case 20 => if text == NameText(UpsBasicOutputStatus) then Some(UpsBasicOutputStatus) else if text == NameText(UpsOutputPercentLoad) then Some(UpsOutputPercentLoad) else None
    case 21 => if text == NameText(UpsAdvBatteryCapacity) then Some(UpsAdvBatteryCapacity) else if text == NameText(UpsBasicBatteryStatus) then Some(UpsBasicBatteryStatus) else None
    case 22 => if text == NameText(UpsAdvInputLineVoltage) then Some(UpsAdvInputLineVoltage) else None
    case 24 => if text == NameText(UpsAdvInputLineFailCause) then Some(UpsAdvInputLineFailCause) else if text == NameText(UpsAdvBatteryTemperature) then Some(UpsAdvBatteryTemperature) else None
    case 25 => if text == NameText(UpsAdvInputMaxLineVoltage) then Some(UpsAdvInputMaxLineVoltage) else None
    case 27 => if text == NameText(UpsEstimatedChargeRemaining) then Some(UpsEstimatedChargeRemaining) else None
    case 29 => if text == NameText(UpsAdvBatteryRunTimeRemaining) then Some(UpsAdvBatteryRunTimeRemaining) else if text == NameText(UpsAdvBatteryReplaceIndicator) then Some(UpsAdvBatteryReplaceIndicator) else None
    case _ => None
  }

  /** The names that share a length still differ. */
  lemma SameLengthNamesDiffer()
    ensures NameText(UpsBasicOutputStatus) != NameText(UpsOutputPercentLoad)
    ensures NameText(UpsAdvBatteryCapacity) != NameText(UpsBasicBatteryStatus)
    ensures NameText(UpsAdvInputLineFailCause) != NameText(UpsAdvBatteryTemperature)
    ensures NameText(UpsAdvBatteryRunTimeRemaining) != NameText(UpsAdvBatteryReplaceIndicator)
  {
    assert NameText(UpsBasicOutputStatus)[3] != NameText(UpsOutputPercentLoad)[3];
    assert NameText(UpsAdvBatteryCapacity)[3] != NameText(UpsBasicBatteryStatus)[3];
    assert NameText(UpsAdvInputLineFailCause)[6] != NameText(UpsAdvBatteryTemperature)[6];
    assert NameText(UpsAdvBatteryRunTimeRemaining)[14] != NameText(UpsAdvBatteryReplaceIndicator)[14];
  }

  /** Looking a scalar up by the name it is registered under finds that scalar. */
  lemma ScalarNamedInverse(n: ScalarName)
    ensures ScalarNamed(NameText(n)) == Some(n)
  {
    SameLengthNamesDiffer();
  }

  /**
   * The scalar registered at `oid`, if any: the MIB prefix picks the group,
   * and the remaining arcs pick the scalar within it.
   */
  function ScalarAt(oid: seq<nat>): (r: Option<ScalarName>) {
    if |oid| < 7 then None
    else if oid[..7] == SystemGroup then SystemScalarAt(oid[7..])
    else if oid[..7] == UpsMib then UpsMibScalarAt(oid[7..])
    else if oid[..7] == PowerNetMib then PowerNetScalarAt(oid[7..])
    else None
  }

  function SystemScalarAt(arcs: seq<nat>): (r: Option<ScalarName>) {
    if arcs == [1] then Some(SysDescr)
    else if arcs == [2] then Some(SysObjectID)
    else if arcs == [3] then Some(SysUpTime)
    else None
  }

  function UpsMibScalarAt(arcs: seq<nat>): (r: Option<ScalarName>) {
    if arcs == [1, 1, 2] then Some(UpsIdentModel)
    else if arcs == [1, 2, 1] then Some(UpsBatteryStatus)
    else if arcs == [1, 2, 4] then Some(UpsEstimatedChargeRemaining)
    else if arcs == [1, 3, 3, 1, 3] then Some(UpsInputVoltage)
    else if arcs == [1, 4, 4, 1, 5] then Some(UpsOutputPercentLoad)
    else None
  }

  function PowerNetScalarAt(arcs: seq<nat>): (r: Option<ScalarName>) {
    if |arcs| != 6 || arcs[..3] != [1, 1, 1] then None
    else match (arcs[3], arcs[4], arcs[5])
      case (1, 1, 1) => Some(UpsBasicIdentModel)
      case (2, 1, 1) => Some(UpsBasicBatteryStatus)
      case (2, 2, 1) => Some(UpsAdvBatteryCapacity)
      case (2, 2, 2) => Some(UpsAdvBatteryTemperature)
      case (2, 2, 3) => Some(UpsAdvBatteryRunTimeRemaining)
      case (2, 2, 4) => Some(UpsAdvBatteryReplaceIndicator)
      case (3, 2, 1) => Some(UpsAdvInputLineVoltage)
      case (3, 2, 2) => Some(UpsAdvInputMaxLineVoltage)
      case (3, 2, 5) => Some(UpsAdvInputLineFailCause)
      case (4, 1, 1) => Some(UpsBasicOutputStatus)
      case (4, 2, 4) => Some(UpsAdvOutputCurrent)
      case _ => None
  }

  /** An OID under `mib` splits back into `mib` and the arcs below it. */
  lemma SplitUnder(mib: seq<nat>, arcs: seq<nat>)
    requires |mib| == 7
    ensures (mib + arcs)[..7] == mib && (mib + arcs)[7..] == arcs
  {
    assert (mib + arcs)[..7] == mib;
  }

  /** Looking a scalar up by its OID finds that scalar. */
  lemma ScalarAtInverse(n: ScalarName)
    ensures ScalarAt(OidOf(n)) == Some(n)
  {
    var oid := OidOf(n);
    assert SystemGroup[6] != UpsMib[6] && SystemGroup[4] != PowerNetMib[4] && UpsMib[4] != PowerNetMib[4];
    SplitUnder(oid[..7], oid[7..]);
  }

  /** Registered names and OIDs are unique: two positions that agree on either are the same position. */
  lemma ProvidersUnique()
    ensures |Providers()| == 19
    ensures forall i, j :: 0 <= i < |Providers()| && 0 <= j < |Providers()| && Providers()[i].name == Providers()[j].name ==> i == j
    ensures forall i, j :: 0 <= i < |Providers()| && 0 <= j < |Providers()| && Providers()[i].oid == Providers()[j].oid ==> i == j
  {
    RegisteredOnce();
    forall i, j | 0 <= i < |Providers()| && 0 <= j < |Providers()|
      ensures Providers()[i].name == Providers()[j].name ==> i == j
      ensures Providers()[i].oid == Providers()[j].oid ==> i == j
    {
      var m, n := Registered[i], Registered[j];
      ScalarNamedInverse(m);
      ScalarNamedInverse(n);
      ScalarAtInverse(m);
      ScalarAtInverse(n);
    }
  }

  /** No two scalars are registered under the same name. */
  lemma NamesInjective()
    ensures forall m, n :: NameText(m) == NameText(n) ==> m == n
  {
    forall m, n | NameText(m) == NameText(n) ensures m == n {
      ScalarNamedInverse(m);
      ScalarNamedInverse(n);
    }
  }

  /** A name lookup that succeeds finds the scalar registered under that name. */
  lemma ScalarNamedFound(text: string)
    ensures ScalarNamed(text).Some? ==> NameText(ScalarNamed(text).value) == text
  {
  }

  /** A name lookup fails only on names nobody is registered under. */
  lemma ScalarNamedMissing(text: string)
    ensures ScalarNamed(text).None? ==> forall n :: NameText(n) != text
  {
    forall n ensures ScalarNamed(text).None? ==> NameText(n) != text {
      ScalarNamedInverse(n);
    }
  }

  /** An OID lookup that succeeds finds the scalar registered at exactly that OID. */
  lemma ScalarAtFound(oid: seq<nat>)
    ensures ScalarAt(oid).Some? ==> OidOf(ScalarAt(oid).value) == oid
  {
    if |oid| >= 7 {
      assert oid == oid[..7] + oid[7..];
      SystemScalarAtFound(oid[7..]);
      UpsMibScalarAtFound(oid[7..]);
      PowerNetScalarAtFound(oid[7..]);
    }
  }

  lemma SystemScalarAtFound(arcs: seq<nat>)
    ensures SystemScalarAt(arcs).Some? ==> OidOf(SystemScalarAt(arcs).value) == SystemGroup + arcs
  {
  }

  lemma UpsMibScalarAtFound(arcs: seq<nat>)
    ensures UpsMibScalarAt(arcs).Some? ==> OidOf(UpsMibScalarAt(arcs).value) == UpsMib + arcs
  {
  }

  lemma PowerNetScalarAtFound(arcs: seq<nat>)
    ensures PowerNetScalarAt(arcs).Some? ==> OidOf(PowerNetScalarAt(arcs).value) == PowerNetMib + arcs
  {
    if |arcs| == 6 {
      assert arcs == arcs[..3] + [arcs[3], arcs[4], arcs[5]];
    }
  }

  /** An OID lookup fails only on OIDs nobody is registered at. */
  lemma ScalarAtMissing(oid: seq<nat>)
    ensures ScalarAt(oid).None? ==> forall n :: OidOf(n) != oid
  {
    forall n ensures ScalarAt(oid).None? ==> OidOf(n) != oid {
      ScalarAtInverse(n);
    }
  }

  /** Every provider is a read-only scalar under one of the three MIBs. */
  lemma ProvidersUnderMibs(n: ScalarName)
    ensures ProviderOf(n).maxAccess == ReadOnly
    ensures |OidOf(n)| > 7
    ensures OidOf(n)[..7] in {SystemGroup, UpsMib, PowerNetMib}
  {
    var oid := OidOf(n);
    SplitUnder(oid[..7], oid[7..]);
  }

  /** Only Integer scalars carry an enumeration, and its codes are positive. */
  lemma EnumerationsWellFormed(n: ScalarName)
    ensures EnumerationOf(n).Some? ==> TypeOf(n) == Integer
    ensures EnumerationOf(n).Some? ==> forall code :: code in EnumerationOf(n).value ==> code > 0
  {
  }

  /**
   * The two codes the status topic writes are defined in all three status
   * enumerations: 2 is "on line" / "battery normal" and 3 is "on battery" /
   * "battery low".
   */
  lemma StatusCodesDefined()
    ensures EnumerationOf(UpsBasicOutputStatus) == Some(OutputStatusCodes)
    ensures EnumerationOf(UpsBatteryStatus) == Some(UpsBatteryStatusCodes)
    ensures EnumerationOf(UpsBasicBatteryStatus) == Some(BasicBatteryStatusCodes)
    ensures OutputStatusCodes[2] == "onLine" && OutputStatusCodes[3] == "onBattery"
    ensures UpsBatteryStatusCodes[2] == "batteryNormal" && UpsBatteryStatusCodes[3] == "batteryLow"
    ensures BasicBatteryStatusCodes[2] == "batteryNormal" && BasicBatteryStatusCodes[3] == "batteryLow"
  {
  }
}

=== FILE: scenarios.dfy ===
/**
 * Concrete telemetry messages and what the handler makes of them.
 */
module Scenarios {
  import opened Wrappers
  import opened JsText
  import opened JsNumber
  import opened Registry
  import opened ValueStore
  import opened Dispatcher
  import opened CorrectedDispatcher

  /** `parseFloat("229.5")` reads the whole payload as a decimal number. */
  lemma ParseDecimal()
    ensures ParseFloat("229.5") == Some(Finite(229.5))
  {
    var s := "229.5";
    assert SkipWhiteSpace(s, 0) == 0;
    assert SignAt(s, 0) == (false, 0);
    assert !HasInfinityAt(s, 0);
    assert DigitsEnd(s, 0) == 3 && DigitsEnd(s, 4) == 5;
    assert s[0..3] == "229" && s[4..5] == "5";
    assert "229"[..2] == "22" && "22"[..1] == "2" && "2"[..0] == "";
    assert NatValue("229") == 229;
    assert "5"[..0] == "";
    assert NatValue("5") == 5;
    assert ExponentAt(s, 5) == (0, 5);
  }

  /** A payload starting with a letter other than `I` is NaN. */
  lemma ParseWord()
    ensures ParseFloat("not-a-number") == None
  {
    var s := "not-a-number";
    assert SkipWhiteSpace(s, 0) == 0;
    assert SignAt(s, 0) == (false, 0);
    assert !HasInfinityAt(s, 0);
  }

  /** A voltage of 229.5 is stored as 230 in both voltage scalars, the tie rounded up. */
  lemma VoltageMessage(s: Store)
    ensures Dispatch(s, "ups/voltage", "229.5")
         == s[UpsInputVoltage := Int(230)][UpsAdvInputLineVoltage := Gauge(230)]
  {
    ParseDecimal();
    RoundTiesUp(229);
    DispatchVoltage(s, "229.5", 229.5);
  }

  /** A payload that is not a number changes nothing, whatever the topic. */
  lemma WordMessage(s: Store, topic: string)
    ensures Dispatch(s, topic, "not-a-number") == s
  {
    ParseWord();
  }

  /** "MAINS" is dropped by the handler as written and recorded as onLine by the corrected one. */
  lemma MainsMessage(s: Store)
    ensures Dispatch(s, "ups/status", "MAINS") == s
    ensures FixedDispatch(s, "ups/status", "mains")
         == s[UpsBasicOutputStatus := Int(2)][UpsBatteryStatus := Int(2)][UpsBasicBatteryStatus := Int(2)]
  {
    FixedMains(s, "MAINS");
    FixedMains(s, "mains");
  }

  /** `toUpperCase` raises dotless i to I, so "MAıNS" counts as "MAINS" and, corrected, records onLine. */
  lemma DotlessIMessage(s: Store)
    ensures FixedDispatch(s, "ups/status", "MA\U{0131}NS")
         == s[UpsBasicOutputStatus := Int(2)][UpsBatteryStatus := Int(2)][UpsBasicBatteryStatus := Int(2)]
  {
    assert EqualsIgnoringCase("MA\U{0131}NS", "MAINS");
    FixedMains(s, "MA\U{0131}NS");
  }
}

=== FILE: seed.dfy ===
/**
 * The values the agent writes at start-up, once every provider is
 * registered, and the store they produce.
 */
module Seed {
  import opened Wrappers
  import opened Registry
  import opened ValueStore

  /** The start-up calls of `setScalarValue`, in source order: the scalar's name and the JavaScript value. */
  const SeedCalls: seq<(string, JsValue)> := [
    ("sysDescr", Str("APC UPS simulated by Node.js")),
    ("sysObjectID", Str("1.3.6.1.4.1.318.1.1.1")),
    ("sysUpTime", Num(123456)),
    ("upsIdentModel", Str("ESP32-UPS")),
    ("upsBasicOutputStatus", Num(2)),
    ("upsAdvInputLineFailCause", Num(1)),
    ("upsBatteryStatus", Num(2)),
    ("upsEstimatedChargeRemaining", Num(85)),
    ("upsInputVoltage", Num(12)),
    ("upsOutputPercentLoad", Num(42)),
    ("upsBasicIdentModel", Str("ESP32-UPS")),
    ("upsAdvBatteryCapacity", Num(85)),
    ("upsAdvBatteryRunTimeRemaining", Num(180)),
    ("upsBasicBatteryStatus", Num(2)),
    ("upsAdvBatteryReplaceIndicator", Num(1)),
    ("upsAdvInputMaxLineVoltage", Num(230)),
    ("upsAdvOutputCurrent", Num(42)),
    ("upsAdvInputLineVoltage", Num(12)),
    ("upsAdvBatteryTemperature", Num(31))
  ]

  /** The typed writes the start-up calls come down to once each name is looked up and each value typed by its scalar. */
  const SeedWrites: seq<(ScalarName, Value)> := [
    (SysDescr, Text("APC UPS simulated by Node.js")),
    (SysObjectID, Oid("1.3.6.1.4.1.318.1.1.1")),
    (SysUpTime, Ticks(123456)),
    (UpsIdentModel, Text("ESP32-UPS")),
    (UpsBasicOutputStatus, Int(2)),
    (UpsAdvInputLineFailCause, Int(1)),
    (UpsBatteryStatus, Int(2)),
    (UpsEstimatedChargeRemaining, Int(85)),
    (UpsInputVoltage, Int(12)),
    (UpsOutputPercentLoad, Int(42)),
    (UpsBasicIdentModel, Text("ESP32-UPS")),
    (UpsAdvBatteryCapacity, Int(85)),
    (UpsAdvBatteryRunTimeRemaining, Int(180)),
    (UpsBasicBatteryStatus, Int(2)),
    (UpsAdvBatteryReplaceIndicator, Int(1)),
    (UpsAdvInputMaxLineVoltage, Int(230)),
    (UpsAdvOutputCurrent, Int(42)),
    (UpsAdvInputLineVoltage, Gauge(12)),
    (UpsAdvBatteryTemperature, Int(31))
  ]

  /** Position of the start-up write that targets each scalar. */
  function SeedIndex(n: ScalarName): (j: nat)
    ensures j < |SeedWrites| && SeedWrites[j].0 == n
  {
    match n
    case SysDescr => 0
    case SysObjectID => 1
    case SysUpTime => 2
    case UpsIdentModel => 3
    case UpsBasicOutputStatus => 4
    case UpsAdvInputLineFailCause => 5
    case UpsBatteryStatus => 6
    case UpsEstimatedChargeRemaining => 7
    case UpsInputVoltage => 8
    case UpsOutputPercentLoad => 9
    case UpsBasicIdentModel => 10
    case UpsAdvBatteryCapacity => 11
    case UpsAdvBatteryRunTimeRemaining => 12
    case UpsBasicBatteryStatus => 13
    case UpsAdvBatteryReplaceIndicator => 14
    case UpsAdvInputMaxLineVoltage => 15
    case UpsAdvOutputCurrent => 16
    case UpsAdvInputLineVoltage => 17
    case UpsAdvBatteryTemperature => 18
  }

  /** No two start-up writes target the same scalar. */
  lemma SeedNamesDistinct()
    ensures forall a, b :: 0 <= a < |SeedWrites| && 0 <= b < |SeedWrites| && SeedWrites[a].0 == SeedWrites[b].0 ==> a == b
  {
    forall a, b | 0 <= a < |SeedWrites| && 0 <= b < |SeedWrites| && SeedWrites[a].0 == SeedWrites[b].0
      ensures a == b
    {
      assert SeedIndex(SeedWrites[a].0) == a;
      assert SeedIndex(SeedWrites[b].0) == b;
    }
  }

  /** The start-up call at the position of `n` is made under `n`'s registered name. */
  lemma SeedCallNamed(n: ScalarName)
    ensures |SeedCalls| == |SeedWrites|
    ensures SeedCalls[SeedIndex(n)].0 == NameText(n)
  {
  }

  /** The start-up call at the position of `n` passes a JavaScript value that `n`'s type makes into the start-up write's value. */
  lemma SeedCallTyped(n: ScalarName)
    ensures |SeedCalls| == |SeedWrites|
    ensures Typed(TypeOf(n), SeedCalls[SeedIndex(n)].1) == Some(SeedWrites[SeedIndex(n)].1)
  {
  }

  /** The start-up writes are what the start-up calls resolve to, position by position. */
  lemma SeedResolved()
    ensures CallsResolveTo(SeedCalls, SeedWrites)
  {
    SeedNamesDistinct();
    forall j | 0 <= j < |SeedCalls|
      ensures ResolveCall(SeedCalls[j].0, SeedCalls[j].1) == Some(SeedWrites[j])
    {
      var n := SeedWrites[j].0;
      SeedCallNamed(n);
      SeedCallTyped(n);
      ResolveCallNamed(n, SeedCalls[j].1);
    }
  }

  /**
   * Every start-up call names a registered scalar and passes a JavaScript
   * value of the kind its type takes (a string for OctetString and
   * ObjectIdentifier, a number otherwise), so `setScalarValue` accepts each.
   */
  lemma SeedTyped()
    ensures forall j :: 0 <= j < |SeedCalls| ==> ScalarNamed(SeedCalls[j].0).Some?
    ensures forall j :: 0 <= j < |SeedCalls| ==>
              (SeedCalls[j].1.Num? <==> IsNumeric(TypeOf(ScalarNamed(SeedCalls[j].0).value)))
    ensures WritesTyped(SeedWrites)
  {
    SeedResolved();
    ResolvedCallsRegistered(SeedCalls, SeedWrites);
  }

  /** Made on any store, the start-up calls are all accepted and do what the start-up writes do. */
  lemma SeedCallsAccepted(s: Store)
    ensures SetCalls(s, SeedCalls).Success?
    ensures SetCalls(s, SeedCalls) == SetAll(s, SeedWrites)
  {
    SeedResolved();
    SetCallsResolved(s, SeedCalls, SeedWrites);
  }

  /** The store once start-up is over: the start-up calls made, in order, on an empty store. */
  function InitialStore(): (s: Store)
    ensures WellTyped(s)
  {
    SeedCallsAccepted(map[]);
    SeedTyped();
    forall k ensures LastWrite(SeedWrites, k).Some? {
      var j := SeedIndex(k);
    }
    SetAllCoveringWellTyped(SeedWrites);
    SetCalls(map[], SeedCalls).value
  }

  /** Every scalar is seeded exactly once: one start-up write, and only one, targets it. */
  lemma SeedExactlyOnce(n: ScalarName)
    ensures exists j :: 0 <= j < |SeedWrites| && SeedWrites[j].0 == n
    ensures forall j :: 0 <= j < |SeedWrites| && SeedWrites[j].0 == n ==> j == SeedIndex(n)
  {
    SeedNamesDistinct();
    var j := SeedIndex(n);
  }

  /** The initial store holds, for each scalar, the value of the one start-up write that targets it. */
  lemma InitialValue(n: ScalarName)
    ensures InitialStore()[n] == SeedWrites[SeedIndex(n)].1
    ensures Some(InitialStore()[n]) == Typed(TypeOf(n), SeedCalls[SeedIndex(n)].1)
  {
    SeedCallsAccepted(map[]);
    SeedTyped();
    SeedNamesDistinct();
    SetAllOfDistinct(map[], SeedWrites, SeedIndex(n));
    SeedCallTyped(n);
  }

  /** The start-up write of an enumerated scalar carries an Integer code of its enumeration. */
  lemma SeedWriteInEnumeration(n: ScalarName)
    requires EnumerationOf(n).Some?
    ensures SeedWrites[SeedIndex(n)].1.Int?
    ensures SeedWrites[SeedIndex(n)].1.n in EnumerationOf(n).value
  {
  }

  /** Every seeded value of an enumerated scalar is an Integer code of its enumeration. */
  lemma SeedEnumerationsValid(n: ScalarName)
    requires EnumerationOf(n).Some?
    ensures InitialStore()[n].Int?
    ensures InitialStore()[n].n in EnumerationOf(n).value
  {
    InitialValue(n);
    SeedWriteInEnumeration(n);
  }
}

=== FILE: value_store.dfy ===
/**
 * The value store behind the agent's MIB: one typed value per registered
 * scalar, `setScalarValue` by registered name, the read net-snmp makes of
 * that MIB when it answers a GET, and the typed writes a call comes down
 * to, applied one at a time or as a list.
 */
module ValueStore {
  import opened Wrappers
  import opened Registry

  /** A scalar value tagged with its SNMP type; an OID value is kept as its dotted text. */
  datatype Value =
    | Text(text: string)
    | Oid(dotted: string)
    | Ticks(n: int)
    | Int(n: int)
    | Gauge(n: int)

  function TypeOfValue(v: Value): (t: ScalarType) {
    match v
    case Text(_) => OctetString
    case Oid(_) => ObjectIdentifier
    case Ticks(_) => TimeTicks
    case Int(_) => Integer
    case Gauge(_) => Gauge32
  }

  /** The JavaScript values the agent hands to `setScalarValue`: strings and (integral) numbers. */
  datatype JsValue = Str(text: string) | Num(n: int)

  /** The value a JavaScript number becomes when written to a numeric scalar of type `t`. */
  function NumberAs(t: ScalarType, n: int): (v: Value)
    requires IsNumeric(t)
    ensures TypeOfValue(v) == t
    ensures v.n == n
  {
    match t
    case TimeTicks => Ticks(n)
    case Integer => Int(n)
    case Gauge32 => Gauge(n)
  }

  /**
   * The value a scalar of type `t` stores for the JavaScript value `v`: a
   * number for a numeric scalar, a string for an OctetString or an
   * ObjectIdentifier; none when the kinds differ.
   */
  function Typed(t: ScalarType, v: JsValue): (r: Option<Value>)
    ensures r.Some? <==> (v.Num? <==> IsNumeric(t))
    ensures r.Some? ==> TypeOfValue(r.value) == t
    ensures r.Some? && v.Num? ==> r.value.n == v.n
    ensures r.Some? && v.Str? ==> r.value == (if t == OctetString then Text(v.text) else Oid(v.text))
  {
    match v
    case Num(n) => if IsNumeric(t) then Some(NumberAs(t, n)) else None
    case Str(text) =>
      if t == OctetString then Some(Text(text))
      else if t == ObjectIdentifier then Some(Oid(text))
      else None
  }

  type Store = map<ScalarName, Value>

  datatype StoreError = NotFound | TypeMismatch

  /** Every registered scalar has a value, of its declared type. */
  predicate WellTyped(s: Store) {
    forall n :: n in s && TypeOfValue(s[n]) == TypeOf(n)
  }

  /** Overwrite one scalar; a value of the wrong type is refused. */
  function Set(s: Store, n: ScalarName, v: Value): (r: Result<Store, StoreError>)
    ensures r.Success? <==> TypeOfValue(v) == TypeOf(n)
    ensures r.Failure? ==> r.error == TypeMismatch
    ensures r.Success? ==> r.value.Keys == s.Keys + {n} && r.value[n] == v
    ensures r.Success? ==> forall k :: k in s && k != n ==> r.value[k] == s[k]
    ensures r.Success? && WellTyped(s) ==> WellTyped(r.value)
  {
    if TypeOfValue(v) != TypeOf(n) then Failure(TypeMismatch)
    else Success(s[n := v])
  }

  /**
   * The typed write `setScalarValue(name, v)` comes down to: the scalar
   * registered under `name` and the value its type makes of `v`; none when
   * the name is unknown or the kinds differ.
   */
  function ResolveCall(name: string, v: JsValue): (r: Option<(ScalarName, Value)>)
    ensures r.Some? ==> NameText(r.value.0) == name && Typed(TypeOf(r.value.0), v) == Some(r.value.1)
    ensures r.None? <==> forall n :: NameText(n) == name ==> Typed(TypeOf(n), v).None?
  {
    ScalarNamedFound(name);
    ScalarNamedMissing(name);
    NamesInjective();
    match ScalarNamed(name)
    case None => None
    case Some(n) =>
      match Typed(TypeOf(n), v)
      case None => None
      case Some(tv) => Some((n, tv))
  }

  /** A call under a scalar's registered name resolves to that scalar, with the value its type makes of `v`. */
  lemma ResolveCallNamed(n: ScalarName, v: JsValue)
    ensures ResolveCall(NameText(n), v) == match Typed(TypeOf(n), v) case None => None case Some(tv) => Some((n, tv))
  {
    ScalarNamedInverse(n);
  }

  /** `setScalarValue`: overwrite the scalar registered under `name`; an unknown name or a value of the wrong kind is refused. */
  function SetNamed(s: Store, name: string, v: JsValue): (r: Result<Store, StoreError>)
    ensures (forall n :: NameText(n) != name) ==> r == Failure(NotFound)
    ensures forall n :: NameText(n) == name ==>
              (r.Success? <==> Typed(TypeOf(n), v).Some?) &&
              (r.Failure? ==> r.error == TypeMismatch) &&
              (r.Success? ==> r.value == s[n := Typed(TypeOf(n), v).value])
    ensures r.Success? && WellTyped(s) ==> WellTyped(r.value)
  {
    ScalarNamedFound(name);
    ScalarNamedMissing(name);
    match ScalarNamed(name)
    case None => Failure(NotFound)
    case Some(n) =>
      NamesInjective();
      match Typed(TypeOf(n), v)
      case None => Failure(TypeMismatch)
      case Some(tv) => Set(s, n, tv)
  }

  /** `setScalarValue` succeeds exactly when its call resolves, and then it is that typed write. */
  lemma SetNamedResolves(s: Store, name: string, v: JsValue)
    ensures SetNamed(s, name, v).Success? <==> ResolveCall(name, v).Some?
    ensures ResolveCall(name, v).Some? ==>
              SetNamed(s, name, v) == Set(s, ResolveCall(name, v).value.0, ResolveCall(name, v).value.1)
  {
    ScalarNamedFound(name);
  }

  /**
   * The read net-snmp makes of the MIB the agent obtains with `getMib()`
   * when it answers a GET: the scalar registered under `name`, an unknown
   * name being refused. The agent itself never reads a scalar back.
   */
  function GetNamed(s: Store, name: string): (r: Result<Value, StoreError>)
    requires WellTyped(s)
    ensures (forall n :: NameText(n) != name) <==> r == Failure(NotFound)
    ensures forall n :: NameText(n) == name ==> r == Success(s[n]) && TypeOfValue(r.value) == TypeOf(n)
  {
    ScalarNamedFound(name);
    ScalarNamedMissing(name);
    match ScalarNamed(name)
    case None => Failure(NotFound)
    case Some(n) =>
      NamesInjective();
      Success(s[n])
  }

  /** Reading a scalar right after a successful write returns the stored form of what was written; other scalars read as before. */
  lemma GetAfterSet(s: Store, name: string, v: JsValue, other: string)
    requires WellTyped(s)
    requires SetNamed(s, name, v).Success?
    ensures WellTyped(SetNamed(s, name, v).value)
    ensures GetNamed(SetNamed(s, name, v).value, name) == Success(Typed(TypeOf(ScalarNamed(name).value), v).value)
    ensures other != name ==> GetNamed(SetNamed(s, name, v).value, other) == GetNamed(s, other)
  {
    var n := ScalarNamed(name).value;
    ScalarNamedFound(name);
    NamesInjective();
  }

  /** Writing a JavaScript number to a numeric scalar: never refused, the value typed by the scalar. */
  function SetNumber(s: Store, n: ScalarName, x: int): (r: Store)
    requires IsNumeric(TypeOf(n))
    ensures r.Keys == s.Keys + {n}
    ensures TypeOfValue(r[n]) == TypeOf(n) && r[n].n == x
    ensures forall k :: k in s && k != n ==> r[k] == s[k]
    ensures WellTyped(s) ==> WellTyped(r)
  {
    Set(s, n, NumberAs(TypeOf(n), x)).value
  }

  /** A numeric write is `setScalarValue` of a JavaScript number under the scalar's registered name. */
  lemma SetNumberUpdates(s: Store, n: ScalarName, x: int)
    requires IsNumeric(TypeOf(n))
    ensures SetNamed(s, NameText(n), Num(x)) == Success(SetNumber(s, n, x))
  {
  }

  /** Every write in `ws` carries a value of its scalar's type. */
  predicate WritesTyped(ws: seq<(ScalarName, Value)>) {
    forall j :: 0 <= j < |ws| ==> TypeOfValue(ws[j].1) == TypeOf(ws[j].0)
  }

  /** `Set` applied to each write in turn, stopping at the first refusal. */
  function SetAll(s: Store, ws: seq<(ScalarName, Value)>): (r: Result<Store, StoreError>)
    ensures r.Success? <==> WritesTyped(ws)
    decreases |ws|
  {
    if ws == [] then Success(s)
    else
      match Set(s, ws[0].0, ws[0].1)
      case Failure(e) => Failure(e)
      case Success(s') =>
        assert WritesTyped(ws) <==> WritesTyped(ws[1..]) && TypeOfValue(ws[0].1) == TypeOf(ws[0].0) by {
          assert forall j :: 1 <= j < |ws| ==> ws[1..][j - 1] == ws[j];
        }
        SetAll(s', ws[1..])
  }

  /** `setScalarValue` applied to each call in turn, stopping at the first refusal. */
  function SetCalls(s: Store, calls: seq<(string, JsValue)>): (r: Result<Store, StoreError>)
    ensures r.Success? && WellTyped(s) ==> WellTyped(r.value)
    decreases |calls|
  {
    if calls == [] then Success(s)
    else
      match SetNamed(s, calls[0].0, calls[0].1)
      case Failure(e) => Failure(e)
      case Success(s') => SetCalls(s', calls[1..])
  }

  /** Each call of `calls` resolves to the typed write at the same position of `ws`. */
  predicate CallsResolveTo(calls: seq<(string, JsValue)>, ws: seq<(ScalarName, Value)>) {
    |calls| == |ws| && forall j :: 0 <= j < |calls| ==> ResolveCall(calls[j].0, calls[j].1) == Some(ws[j])
  }

  /** Calls that all resolve are accepted, and they do what their typed writes do. */
  lemma {:induction false} SetCallsResolved(s: Store, calls: seq<(string, JsValue)>, ws: seq<(ScalarName, Value)>)
    requires CallsResolveTo(calls, ws)
    ensures WritesTyped(ws)
    ensures SetCalls(s, calls) == SetAll(s, ws)
    ensures SetCalls(s, calls).Success?
    decreases |calls|
  {
    forall j | 0 <= j < |ws| ensures TypeOfValue(ws[j].1) == TypeOf(ws[j].0) {
      assert ResolveCall(calls[j].0, calls[j].1) == Some(ws[j]);
    }
    if calls != [] {
      SetNamedResolves(s, calls[0].0, calls[0].1);
      assert ResolveCall(calls[0].0, calls[0].1) == Some(ws[0]);
      var s' := Set(s, ws[0].0, ws[0].1).value;
      assert CallsResolveTo(calls[1..], ws[1..]) by {
        forall j | 0 <= j < |calls[1..]| ensures ResolveCall(calls[1..][j].0, calls[1..][j].1) == Some(ws[1..][j]) {
          assert calls[1..][j] == calls[j + 1] && ws[1..][j] == ws[j + 1];
        }
      }
      SetCallsResolved(s', calls[1..], ws[1..]);
    }
  }

  /** A call that resolves names a registered scalar and passes a value of the kind its type takes. */
  lemma ResolvedCallsRegistered(calls: seq<(string, JsValue)>, ws: seq<(ScalarName, Value)>)
    requires CallsResolveTo(calls, ws)
    ensures forall j :: 0 <= j < |calls| ==> ScalarNamed(calls[j].0) == Some(ws[j].0)
    ensures forall j :: 0 <= j < |calls| ==> (calls[j].1.Num? <==> IsNumeric(TypeOf(ws[j].0)))
    ensures WritesTyped(ws)
  {
    forall j | 0 <= j < |calls|
      ensures ScalarNamed(calls[j].0) == Some(ws[j].0)
      ensures calls[j].1.Num? <==> IsNumeric(TypeOf(ws[j].0))
    {
      assert ResolveCall(calls[j].0, calls[j].1) == Some(ws[j]);
      ScalarNamedInverse(ws[j].0);
    }
  }

  /** The value the last write to `k` in `ws` carries, if any write targets `k`. */
  function LastWrite(ws: seq<(ScalarName, Value)>, k: ScalarName): (r: Option<Value>)
    ensures r.None? <==> forall j :: 0 <= j < |ws| ==> ws[j].0 != k
    ensures r.Some? ==> exists j :: 0 <= j < |ws| && ws[j] == (k, r.value) && forall j' :: j < j' < |ws| ==> ws[j'].0 != k
    decreases |ws|
  {
    if ws == [] then None
    else
      match LastWrite(ws[1..], k)
      case Some(v) =>
        assert exists j :: 0 <= j < |ws| && ws[j] == (k, v) && forall j' :: j < j' < |ws| ==> ws[j'].0 != k by {
          var j :| 0 <= j < |ws[1..]| && ws[1..][j] == (k, v) && forall j' :: j < j' < |ws[1..]| ==> ws[1..][j'].0 != k;
          assert ws[j + 1] == (k, v);
          forall j' | j + 1 < j' < |ws| ensures ws[j'].0 != k { assert ws[1..][j' - 1] == ws[j']; }
        }
        Some(v)
      case None =>
        assert forall j :: 1 <= j < |ws| ==> ws[j].0 != k by {
          forall j | 1 <= j < |ws| ensures ws[j].0 != k { assert ws[1..][j - 1] == ws[j]; }
        }
        if ws[0].0 == k then Some(ws[0].1) else None
  }

  /** When no two writes target the same scalar, each scalar written ends up with the value written to it. */
  lemma {:induction false} LastWriteOfDistinct(ws: seq<(ScalarName, Value)>, j: nat)
    requires j < |ws|
    requires forall a, b :: 0 <= a < |ws| && 0 <= b < |ws| && ws[a].0 == ws[b].0 ==> a == b
    ensures LastWrite(ws, ws[j].0) == Some(ws[j].1)
    decreases |ws|
  {
    var rest := ws[1..];
    if j == 0 {
      assert forall b :: 0 <= b < |rest| ==> rest[b].0 != ws[0].0 by {
        forall b | 0 <= b < |rest| ensures rest[b].0 != ws[0].0 { assert rest[b] == ws[b + 1]; }
      }
    } else {
      assert rest[j - 1] == ws[j];
      forall a, b | 0 <= a < |rest| && 0 <= b < |rest| && rest[a].0 == rest[b].0 ensures a == b {
        assert rest[a] == ws[a + 1] && rest[b] == ws[b + 1];
      }
      LastWriteOfDistinct(rest, j - 1);
    }
  }

  /**
   * After a successful `SetAll`, a scalar is stored when it was stored before
   * or written; it holds its last written value, or its old one when nothing
   * wrote it.
   */
  lemma {:induction false} SetAllAt(s: Store, ws: seq<(ScalarName, Value)>, k: ScalarName)
    requires WritesTyped(ws)
    ensures k in SetAll(s, ws).value <==> k in s || LastWrite(ws, k).Some?
    ensures LastWrite(ws, k).Some? ==> SetAll(s, ws).value[k] == LastWrite(ws, k).value
    ensures LastWrite(ws, k).None? && k in s ==> SetAll(s, ws).value[k] == s[k]
    decreases |ws|
  {
    if ws != [] {
      var s' := Set(s, ws[0].0, ws[0].1).value;
      var rest := ws[1..];
      assert WritesTyped(rest) by {
        assert forall j :: 1 <= j < |ws| ==> rest[j - 1] == ws[j];
      }
      SetAllAt(s', rest, k);
    }
  }

  /** Typed writes that target distinct scalars leave each written scalar holding the value written to it. */
  lemma SetAllOfDistinct(s: Store, ws: seq<(ScalarName, Value)>, j: nat)
    requires WritesTyped(ws)
    requires j < |ws|
    requires forall a, b :: 0 <= a < |ws| && 0 <= b < |ws| && ws[a].0 == ws[b].0 ==> a == b
    ensures ws[j].0 in SetAll(s, ws).value && SetAll(s, ws).value[ws[j].0] == ws[j].1
  {
    SetAllAt(s, ws, ws[j].0);
    LastWriteOfDistinct(ws, j);
  }

  /** Typed writes that reach every scalar, applied to an empty store, give a well-typed store. */
  lemma SetAllCoveringWellTyped(ws: seq<(ScalarName, Value)>)
    requires WritesTyped(ws)
    requires forall k :: LastWrite(ws, k).Some?
    ensures WellTyped(SetAll(map[], ws).value)
  {
    var s := SetAll(map[], ws).value;
    forall k
      ensures k in s && TypeOfValue(s[k]) == TypeOf(k)
    {
      SetAllAt(map[], ws, k);
      var j :| 0 <= j < |ws| && ws[j] == (k, LastWrite(ws, k).value);
    }
  }
}

=== FILE: wrappers.dfy ===
/** Failure-compatible wrappers shared by the model. */
module Wrappers {

  /** A value that may be absent; `None` plays the role of JavaScript's NaN or a missing entry. */
  datatype Option<+T> = None | Some(value: T)

  /** Either a result or the error that prevented it. */
  datatype Result<+T, +E> = Success(value: T) | Failure(error: E)
}
